=== FILE: README.md ===
# image-report: ingestion and status lifecycle, modelled in Dafny

This project models the core of `image-report`, a crawler that polls a fixed list of
sources, records the image/link candidates found on each source's page, downloads the
pending images, and reports the pairs that became fully available since the run started.

The model covers two parts of the program:

- **The per-run pipeline** of `src/image-report.js`:
  - `downloadSource` applies the source's policy (`images-and-links`, `images-only`,
    `links-only`) to each candidate. It then inserts a Link row and an Image row and
    counts the candidate only when both inserts complete.
  - `downloadImage` gives a pending image the terminal status 2 or -1.
  - `main` checks the configuration, runs the source loop and the image loop with
    per-unit failure isolation, selects the matches, and calls each emission target
    independently.
- **The record store** of `src/database.js`, as pure functions over an immutable `Db` of
  three tables. Inserts create rows with status 1. Updates touch one row. The report
  query is a filtered join ordered by link time.

Modules (one per file):

| file | module | models |
|---|---|---|
| basics.dfy | `Basics` | `Option`, `Result`, and JavaScript's `!!` and `\|\|` on strings that may be `undefined` |
| records.dfy | `Records` | `Status` (`Pending`/`Active`/`Failed`, persisted as 1/2/-1), the rows, and the store invariant `Valid` |
| store.dfy | `Store` | `insertLink`, `insertImage`, `updateSource`, `updateLink`, `updateImage`, `getSources`, `getPendingLinks`, `getPendingImages` |
| report_query.dfy | `Query` | `getLatestMatches` |
| ingest.dfy | `Ingest` | `downloadSource` |
| download.dfy | `Download` | `downloadImage` |
| orchestrator.dfy | `Orchestrator` | `main`, `shouldGenReport`, `shouldSendEmailReport` |

Collaborators are parameters:

- The page fetch and the extractor become a `Fetch` value: the extracted candidates, or
  a failed fetch.
- Each candidate comes with an `InsertOutcome`: whether `insertLink` or `insertImage`
  throws for a reason other than the key, and the clock value each insert reads.
- Each source id and each image id maps to an outcome in a `World`: whether the fetch,
  the file write and the status update succeed, and the clock value.
- Whether `genReport` succeeds is the `reportOk` flag.
- The clock of the store, `strftime("%s", "now")`, is an explicit `now` in seconds.
  `Date.now()` is an explicit value in milliseconds.
- The environment is a `map<string, string>`. `ShouldGenReport` and
  `ShouldSendEmailReport` test it with JavaScript truthiness. The second needs all five
  variables, `BASE_URL` included.

What the code does at the points where a reader might expect otherwise:

- A failed page fetch rejects before `updateSource`, so that source's poll time stays as
  it was.
- A source type outside the three policies has no branch of its own. The candidate
  passes through unchanged and is not rejected as a configuration error.
- The Link and Image inserts are two separate calls, so a Link can be stored without
  its Image.
- The report orders by link time only, with no tie-break.
- Mail needs five settings, `BASE_URL` included.

The store invariant `Valid` requires unique ids in every table, a unique (source, url)
pair per link, and a status of 1, 2 or -1 on every row. Every operation a run performs
preserves it. So does `Linked`: every image names a link of its own source.

## Model

| member | source | states |
|---|---|---|
| Records.StatusOf | src/image-report.js:95-106 | a persisted code decodes to the status whose code it is, and only 1, 2 and -1 decode |
| Store.NextRowId | src/image-report.js:70 | the id an insert returns (`lastID`) is larger than every id already in the table, so it names only the new row; it is 1 in an empty table |
| Store.GetSources | src/database.js:28-30 | every source of the table, in table order, and nothing else |
| Store.InsertLink | src/database.js:40-52 | rejected exactly when the source already has a link with this url; otherwise exactly one link is appended, with a fresh id, the given source, url and title, no text, status 1 and the current time, and nothing else changes; `Valid` and `Linked` are kept |
| Store.InsertImage | src/database.js:54-66 | exactly one image is appended, with a fresh id, the given link, source and url, status 1 and the current time, and nothing else changes; `Valid` is kept, and so is `Linked` when the named link exists for that source |
| Store.UpdateSource | src/database.js:68-74 | only the poll time of the sources with this id changes; links and images are unchanged |
| Store.UpdateLink | src/database.js:76-85 | only title, text, status and time of the links with this id change; id, source and url stay; sources and images are unchanged; `Valid` is kept when the status is a known code |
| Store.UpdateImage | src/database.js:87-94 | only status and time of the images with this id change; sources and links are unchanged; `Valid` is kept when the status is a known code, and `Linked` always |
| Store.GetPendingLinks | src/database.js:32-34 | a link is returned iff it is in the table with status 1, and each pending row as often as the table holds it, so no row is listed twice |
| Store.GetPendingImages | src/database.js:36-38 | an image is returned iff it is in the table with status 1, and each pending row as often as the table holds it, so no row is listed twice |
| Query.JoinLinks | src/database.js:18-23 | a row is produced iff some (link, image, source) triple of the tables satisfies both join conditions, has link and image at status 2, and has image time at or after the start time |
| Query.SortByTime | src/database.js:24 | the result is ordered by link time, newest first, and is a permutation of its input |
| Query.GetLatestMatches | src/database.js:9-25 | a row is returned iff an eligible triple of the store projects to it; the rows are a permutation of the join, so each appears as often as the join yields it; link times never increase along the result |
| Query.NoActiveLinkNoMatches | src/database.js:21 | a store with no link at status 2 yields no rows, whatever the start time |
| Query.StartTimeBoundary | src/database.js:19-23 | in a `Valid` store, a joined pair with link and image at status 2 is reported iff its image time is at or after the start time |
| Query.JoinLinksOnePerImage | src/database.js:18-20 | with unique ids in the three tables, the join yields at most one row per image, since an image fixes its link and a link fixes its source |
| Query.MatchesOnePerImage | src/database.js:9-25 | in a `Valid` store the report names each image at most once, so no row appears twice |
| Query.NoRowForEarlierImage | src/database.js:23 | in a `Valid` store, an image written before the start time has no row, since no other image shares its id |
| Ingest.PolicyOf | src/image-report.js:43-67 | a source type selects a policy iff it is exactly one of `images-and-links`, `images-only`, `links-only`, and that policy is the one of that name |
| Ingest.SynthesizedLink | src/image-report.js:52-56 | the placeholder link's url is the source url, then `#`, then the image url; its title is the image title when that is non-empty, else the source title |
| Ingest.Classify | src/image-report.js:43-67 | `images-and-links` keeps a candidate iff it has both parts, unchanged; `images-only` keeps it iff it has an image, with the synthesized link; `links-only` keeps it iff it has a link, with the image `placeholder` titled like the link; any other type passes it through unchanged |
| Ingest.IngestOne | src/image-report.js:41-85 | a stored link has the candidate's (classified) url and title, the source id, status 1 and the `insertLink` clock; a counted candidate also stores exactly one image pointing at that link, with the classified image url, status 1 and the `insertImage` clock; a failing `insertLink` or an already stored key changes nothing; a link left without an image needs a failing `insertImage` or a candidate that reaches the `try` without an image, which only an unrecognized type lets through; `Valid` and `Linked` are kept |
| Ingest.IngestAll | src/image-report.js:38-86 | `linkCount` equals the number of images inserted and is at most the number of candidates; rows are only appended, new rows are pending, sources are untouched; `Valid` and `Linked` are kept |
| Ingest.DownloadSource | src/image-report.js:30-91 | a failed fetch rejects with the store unchanged; otherwise it rejects iff `updateSource` throws; every candidate of a fetched page whose `insertLink` did not fail for another reason has its key stored; with a recognized type and no failing `insertImage`, new links and images come in pairs, the k-th new image pointing at the k-th new link; on a fetched page, every appended link is some candidate's classified link of this source, and every appended image some candidate's classified image of this source; the source's poll time is written iff the page was fetched and the update succeeded, and nothing else of the sources changes; the count equals the images inserted |
| Ingest.ImagesAndLinksNeedsBoth | src/image-report.js:43-46 | under `images-and-links` a candidate missing its image or its link changes nothing and is not counted |
| Ingest.ImagesOnlySynthesizesLink | src/image-report.js:47-56 | under `images-only` a candidate without an image changes nothing; an inserted link always has url `<source url>#<image url>` and title `image.title \|\| source title`, even when the candidate had its own link |
| Ingest.LinksOnlyUsesPlaceholder | src/image-report.js:57-66 | under `links-only` a candidate without a link changes nothing; a counted candidate stores its own link url and the image url `placeholder` |
| Ingest.ImagesOnlyExample | src/image-report.js:47-56 | an `images-only` source at `http://x` turns an image-only candidate `http://x/i.jpg` titled `T` into the link `http://x#http://x/i.jpg` titled `T` and an image at that url, each stamped by its own insert |
| Ingest.UnrecognizedTypeLeavesOrphanLink | src/image-report.js:43-80 | for any type none of the three branches names, a candidate with a new link but no image gets exactly that Link appended (its source, url and title) and no Image, and is not counted |
| Ingest.OrphanLinkExample | src/image-report.js:43-80 | concrete instance: a `gallery` source and a link-only candidate leave one pending link and no image |
| Ingest.InsertedLinksArePaired | src/image-report.js:69-82 | with a recognized policy and no failing `insertImage`, the links inserted equal the count and the k-th inserted image points at the k-th inserted link |
| Ingest.KnownKeysAreNoOps | src/image-report.js:69-85 | when every candidate's (source, url) key is already stored, the loop changes nothing and counts 0 |
| Ingest.IngestAllAppendsCandidateRows | src/image-report.js:69-80 | the converse of key coverage: every link the loop appends has this source and the classified url and title of one of its candidates, and every image it appends has this source and the classified image url of one of them |
| Ingest.IngestAllCoversKeys | src/image-report.js:69-85 | after a pass, every candidate whose `insertLink` did not fail for another reason, and that reaches `insertLink`, has its key in the table, whatever happened to the other candidates |
| Ingest.ReingestIsNoOp | src/image-report.js:69-85 | ingesting the same candidates again after a pass with no failing `insertLink` leaves the store unchanged and counts 0 |
| Download.DownloadImage | src/image-report.js:93-114 | the status written is never 1; `download` is called iff the url is not `placeholder`; the status is 2 iff the url is not `placeholder` and both the fetch and the write succeed; the row is updated unless `updateImage` throws, in which case nothing changes; `Linked` is kept |
| Download.PlaceholderFailsWithoutFetch | src/image-report.js:95-97 | a `placeholder` image gets -1 without a fetch |
| Orchestrator.ShouldGenReport | src/image-report.js:116 | the report target is enabled iff `REPORTS_DIR` is set to a non-empty string |
| Orchestrator.ShouldSendEmailReport | src/image-report.js:134-139 | the mail target is enabled iff all five of `AWS_ACCESS_KEY_ID`, `AWS_SECRET_ACCESS_KEY`, `EMAIL_TO`, `EMAIL_FROM` and `BASE_URL` are set to non-empty strings |
| Orchestrator.PollSources | src/image-report.js:164-173 | `downloadSource` is applied to every listed source in order, whatever the others did: every fetched source has its candidates' keys stored; a source's poll time becomes its outcome's clock iff the source is listed, its page was fetched and `updateSource` succeeded, and nothing else of it changes; rows are only appended and are pending; `Valid` and `Linked` are kept |
| Orchestrator.PollSourcesAppendsCandidateRows | src/image-report.js:164-173 | every row the source loop appends is a candidate's classified link or image of a listed source whose page was fetched |
| Orchestrator.DownloadAll | src/image-report.js:178-187 | `downloadImage` is applied to every listed image in order: links and sources are unchanged; only status and time of an image change; an unlisted image, or one whose `updateImage` threw, is untouched; any other listed image ends at 2 or -1, stamped with its update's clock |
| Orchestrator.DownloadAllProcesses | src/image-report.js:93-114 | each listed image whose `updateImage` succeeded ends at 2 iff its url is not `placeholder` and its fetch and write succeeded, else -1 |
| Orchestrator.Crawl | src/image-report.js:164-187 | every source of the store is polled, in table order, and its fetched candidates' keys are stored; every source keeps every field but its poll time; in a `Valid` store, every image pending at the start or created by the source loop ends pending only if its `updateImage` threw, and otherwise carries the status its download chose and that update's clock; `Valid` and `Linked` are kept |
| Orchestrator.CrawlAppendsCandidateRows | src/image-report.js:164-187 | every row both loops append is a candidate's row of one of the store's sources whose page was fetched; the image loop changes only status and time |
| Orchestrator.PollThenDownloadProcesses | src/image-report.js:164-187 | the image loop over the pending images after the source loop processes every image pending at the start or created by that loop |
| Orchestrator.DownloadingPendingFinishesThem | src/image-report.js:178-187 | downloading the pending images leaves pending only images whose `updateImage` threw |
| Orchestrator.CrawlLeavesNoPendingImage | src/image-report.js:164-187 | after both loops an image at status 1 is one whose `updateImage` threw |
| Orchestrator.CrawlNeverResetsStatus | src/image-report.js:164-187 | in a `Valid` store, both loops keep every existing link row, and every image that was not pending keeps its whole row, time included |
| Orchestrator.CrawlRefreshesFetchedSources | src/image-report.js:164-173 | after both loops a source's poll time is its outcome's clock iff its page was fetched and the stamp written, else its old time |
| Orchestrator.CrawlWritesNoActiveLink | src/image-report.js:164-187 | both loops leave no link at status 2 if there was none before |
| Orchestrator.Emit | src/image-report.js:193-217 | an empty result invokes no target; otherwise the report is attempted iff enabled and the mail is attempted iff enabled, whatever happened to the report |
| Orchestrator.Run | src/image-report.js:154-218 | exits before touching the store iff the database path is missing or neither target is enabled; otherwise every source is polled and ingested, every source keeps every field but its poll time, in a `Valid` store every image pending at the start or new is processed unless its update threw, and the matches are exactly the eligible rows of the final store for the captured start time, newest link first, each as often as the join yields it, and in a `Valid` store one row per image; each target is attempted iff the matches are non-empty and it is enabled, independently of the other's outcome; `Valid` and `Linked` are kept |
| Orchestrator.RunAppendsCandidateRows | src/image-report.js:154-187 | every row a run adds is a candidate's row of one of the store's sources whose page was fetched |
| Orchestrator.RunLeavesNoPendingImage | src/image-report.js:178-187 | after a completed run, an image still at status 1 is one whose `updateImage` threw |
| Orchestrator.RunNeverResetsStatus | src/image-report.js:154-187 | in a `Valid` store a run never returns a row to status 1: existing link rows are kept, and images that were not pending keep their whole row |
| Orchestrator.RunRefreshesFetchedSources | src/image-report.js:164-173 | a completed run stamps a source iff its fetch and its stamp succeeded; a failed fetch leaves its time as it was |
| Orchestrator.RunDoesNotReportOldImages | src/image-report.js:178-189 | in a `Valid` store, an image finished before the run and written before the start time has no row in the run's matches, so old pairs are not reported again |
| Orchestrator.RunWithoutActiveLinksReportsNothing | src/image-report.js:189-195 | since no link is ever written to status 2, a store with no such link yields no matches and invokes no target |
| Orchestrator.RunStampsWithItsClock | src/image-report.js:178-187 | an image the run took from pending to 2 carries the clock of its own `updateImage` |
| Orchestrator.StartSecond | src/image-report.js:160 | the start time in seconds is the whole second the millisecond count falls in |
| Orchestrator.MainAsWritten | src/image-report.js:160-189 | `main` with `Date.now()` passed unconverted: the matches are the eligible rows for the millisecond count, newest first, one per image in a `Valid` store |
| Orchestrator.Main | src/image-report.js:160-189 | `main` with the start time in seconds: the matches are the eligible rows for that second, newest first, one per image in a `Valid` store; exit and final store are those of the run as written |
| Orchestrator.MainReportsPairsWrittenDuringRun | src/image-report.js:160-189 | when every clock reading of the run is at or after its starting second, each pair whose image the run brought to 2, with its link at 2, is reported |
| Orchestrator.MainAsWrittenMissesPairsWrittenDuringRun | src/image-report.js:160-189 | as written, when the image clocks read below the millisecond count, no pair whose image the run brought to 2 is reported |
| Orchestrator.MillisecondStartTimeHidesFreshPairs | src/image-report.js:160-189 | with the millisecond start time, a fully succeeded pair whose image was written in or after the second the run started, but before the millisecond count, is not reported |
| Orchestrator.SecondStartTimeKeepsFreshPairs | src/image-report.js:160-189 | with the start time in seconds, a fully succeeded pair is reported iff its image was written in or after the second the run started |
| Orchestrator.StartTimeUnitExample | src/image-report.js:160-189 | concrete instance: a run started at 1600000000000 ms whose pair was finished at 1600000000 s reports nothing as written and that pair with seconds |

## Left out

- `src/extract-html.js` is not part of this model. The cheerio DOM traversal and
  `url.resolve` are foreign libraries. Their output is the list of candidates carried by
  `Fetch.Page`. A bare anchor is pushed without `image` or `link`, so every policy drops
  it (`Candidate(None, None)`).
- `src/build-report-html.js` (Preact rendering) is not part of this model. `genReport`
  and `sendEmailReport` are reduced to whether they are attempted.
- `src/download.js` (the HTTP client with its 10 s timeout) appears only as success or
  failure outcomes.
- `src/email.js` (the SES client) is not part of this model. `sendEmail` is not awaited
  (src/image-report.js:146), so its asynchronous failure escapes the `try`. The model
  records only that the mail was handed over.
- File-system effects are left out: the report file, `unlink`, `symlink`, `mkdirp`, the
  image file contents, `process.exit` (modelled as the `Exit` value) and `dotenv`.
- The SQLite engine is left out. The schema is not in the source, so two things are
  assumptions:
  - the uniqueness of (source, url) for links, which is how duplicates are rejected;
  - that `last_updated` holds integers.
- SQLite's choice of a random rowid once the largest rowid is reached is left out.
- Failures of the store calls other than the link key are call-site outcome flags, not
  part of the store functions. These are `linkThrows`, `imageThrows` and the two
  `updateThrows`.
- The calls of `main` outside any `try` are assumed to succeed: `getSources`
  (src/image-report.js:164), `mkdirp(IMAGES_DIR)` (:176), `getPendingImages` (:178) and
  `getLatestMatches` (:189). If one of them fails, the run aborts with an uncaught
  rejection (:220) and emits nothing. `Run` has no such exit and always reaches
  `Finished` once the configuration checks pass.
- The `attempted`, `polled` and `downloaded` id lists record which ids each loop visits.
  They follow from the loop structure. What each visit did is stated by `IngestedAll`,
  `ProcessedSince` and the per-row clauses, not by these lists.
- Logging (`console.log`, `console.error`) is left out.
- `getPendingImages` and `getSources` have no `ORDER BY`. The model returns table order.
- `getLatestMatches` defines no order among equal link times. `GetLatestMatches`
  returns one admissible order, and its contract states only what the query promises.
- Orchestrator.Emit: the mail target's outcome is not modelled. Only its attempt is, because the send is not awaited.
- Orchestrator.MainReportsPairsWrittenDuringRun: the clocks are parameters, so that every
  reading of the run is at or after its starting second is a precondition, not a proved
  fact.
- Enriching a link (`updateLink` with title, text and status 2) is never called by the
  run. It is modelled as a store operation only.

## Findings

| source | as written | input that shows it | evidently intended | confidence | as-written member | corrected member |
|---|---|---|---|---|---|---|
| src/image-report.js:160 | `main` captures `startTime = Date.now()` in milliseconds and `getLatestMatches` compares it with `images.last_updated`, which is written as `strftime("%s", "now")` in seconds (src/database.js:90) | a run started at 1600000000000 ms whose image and link are at status 2, with the image written at 1600000000 s | the report shows the pairs whose image was written since the run started, so the start time is compared in seconds (`Math.floor(startTime / 1000)`) | not executed; medium: holds when the column stores integers, and the schema is not in the source | Orchestrator.MainAsWrittenMissesPairsWrittenDuringRun | Orchestrator.MainReportsPairsWrittenDuringRun |

The as-written run is `Orchestrator.MainAsWritten`, which passes the millisecond count.
The corrected run is `Orchestrator.Main`, which passes `StartSecond(nowMs)`. Every other
property is proved about `Orchestrator.Run` for any start time, so it holds for both.
`Orchestrator.MillisecondStartTimeHidesFreshPairs` and
`Orchestrator.SecondStartTimeKeepsFreshPairs` state the same contrast for one store, and
`Orchestrator.StartTimeUnitExample` shows the input in the table on both.

=== FILE: basics.dfy ===
/** Small shared vocabulary: optional values, results, and JavaScript's
    truthiness of a value that may be `undefined`. */
module Basics {

  /** A value that may be absent (`undefined` or `null` in the program). */
  datatype Option<+T> = None | Some(value: T)

  /** The outcome of a call that may be rejected. */
  datatype Result<+T, +E> = Ok(value: T) | Err(error: E)

  /** `!!s` for a string that may be `undefined`: absent and empty strings are falsy. */
  predicate Truthy(s: Option<string>)
  {
    s.Some? && s.value != ""
  }

  /** `a || b` for operands that are strings or `undefined`. */
  function OrElse(a: Option<string>, b: Option<string>): Option<string>
  {
    if Truthy(a) then a else b
  }
}

=== FILE: download.dfy ===
/** `downloadImage`: one pending image turned into a terminal status. The
    payload fetch and the file write are collaborator outcomes. */
module Download {
  import opened Basics
  import opened Records
  import opened Store

  /** What the collaborators do for one image: whether `download` succeeds,
      whether `writeFile` succeeds, whether `updateImage` throws, and the clock. */
  datatype DownloadOutcome = DownloadOutcome(fetched: bool, saved: bool, updateThrows: bool, now: int)

  /** The store afterwards, whether `download` was called, the status chosen,
      and whether the call rejected (only `updateImage` can make it). */
  datatype ImageStep = ImageStep(db: Db, fetchAttempted: bool, status: Status, threw: bool)

  /** The image's payload is fetched and written: never for the placeholder url. */
  predicate Succeeds(url: string, o: DownloadOutcome)
  {
    url != PlaceholderUrl && o.fetched && o.saved
  }

  /** `downloadImage` (src/image-report.js lines 93-114): a placeholder gets -1 without a fetch;
      any other url gets 2 when both the fetch and the write succeed and -1
      otherwise. The chosen status is then written to the image's row. */
  function DownloadImage(db: Db, image: Image, o: DownloadOutcome): (r: ImageStep)
    ensures r.status != Pending
    ensures r.fetchAttempted <==> image.url != PlaceholderUrl
    ensures r.status == Active <==> Succeeds(image.url, o)
    ensures r.threw == o.updateThrows
    ensures o.updateThrows ==> r.db == db
    ensures !o.updateThrows ==> r.db == UpdateImage(db, image.id, r.status.Code(), o.now)
    ensures Valid(db) ==> Valid(r.db)
    ensures Linked(db) ==> Linked(r.db)
  {
    var attempted := image.url != PlaceholderUrl;
    var status := if attempted && o.fetched && o.saved then Active else Failed;
    if o.updateThrows then ImageStep(db, attempted, status, true)
    else ImageStep(UpdateImage(db, image.id, status.Code(), o.now), attempted, status, false)
  }

  /** A placeholder image ends at -1 and is never fetched. */
  lemma PlaceholderFailsWithoutFetch(db: Db, image: Image, o: DownloadOutcome)
    requires image.url == PlaceholderUrl
    ensures var r := DownloadImage(db, image, o);
      !r.fetchAttempted && r.status.Code() == -1
  {
  }
}

=== FILE: ingest.dfy ===
/** `downloadSource`: one source's page, classified by the source's policy and
    inserted candidate by candidate. The page fetch, the extractor and the
    store's failures are collaborator outcomes passed in as data. */
module Ingest {
  import opened Basics
  import opened Records
  import opened Store

  /** An `{url, title}` object of an extracted candidate. */
  datatype Ref = Ref(url: string, title: Option<string>)

  /** An extracted candidate: an optional image and an optional enclosing link.
      A bare anchor reaches the loop with neither. */
  datatype Candidate = Candidate(image: Option<Ref>, link: Option<Ref>)

  /** What the store does with one candidate's inserts: whether `insertLink` or
      `insertImage` throws for a reason other than the (source, url) key, and the
      clock each insert reads (two statements, two readings). */
  datatype InsertOutcome = InsertOutcome(linkThrows: bool, imageThrows: bool, linkNow: int, imageNow: int)

  /** A candidate paired with the outcome of its inserts. */
  datatype Found = Found(candidate: Candidate, outcome: InsertOutcome)

  /** The page fetch: the extracted candidates, or a failed `download`. */
  datatype Fetch = Page(found: seq<Found>) | FetchFailed

  /** Everything the collaborators decide for one source. */
  datatype SourceOutcome = SourceOutcome(fetch: Fetch, updateThrows: bool, now: int)

  /** The three policies a source's `type` names, and every other string. */
  datatype Policy = ImagesAndLinks | ImagesOnly | LinksOnly | Unrecognized {

    /** The `type` string that selects this policy; an unrecognized one has none. */
    function Name(): string
      requires this != Unrecognized
    {
      match this
      case ImagesAndLinks => "images-and-links"
      case ImagesOnly => "images-only"
      case LinksOnly => "links-only"
    }
  }

  /** The three `type` strings with a branch of their own. */
  const KnownKinds: set<string> := {"images-and-links", "images-only", "links-only"}

  /** The policy a source's `type` selects (an exact string comparison). */
  function PolicyOf(kind: string): (r: Policy)
    ensures r != Unrecognized <==> kind in KnownKinds
    ensures r != Unrecognized ==> r.Name() == kind
  {
    if kind == "images-and-links" then ImagesAndLinks
    else if kind == "images-only" then ImagesOnly
    else if kind == "links-only" then LinksOnly
    else Unrecognized
  }

  predicate Recognized(kind: string)
  {
    PolicyOf(kind) != Unrecognized
  }

  /** The placeholder link of an `images-only` source: `<source url>#<image url>`. */
  function SynthesizedLink(source: Source, image: Ref): (r: Ref)
    ensures |r.url| == |source.url| + 1 + |image.url|
    ensures r.url[..|source.url|] == source.url && r.url[|source.url|] == '#'
    ensures r.url[|source.url| + 1..] == image.url
    ensures Truthy(image.title) ==> r.title == image.title
    ensures !Truthy(image.title) ==> r.title == source.title
  {
    Ref(source.url + "#" + image.url, OrElse(image.title, source.title))
  }

  /** The candidate as it reaches the `try` block, or `None` for `continue`.
      An unrecognized type has no branch and passes the candidate through. */
  function Classify(source: Source, c: Candidate): (r: Option<Candidate>)
    ensures !Recognized(source.kind) ==> r == Some(c)
    ensures Recognized(source.kind) && r.Some? ==> r.value.image.Some? && r.value.link.Some?
    ensures PolicyOf(source.kind) == ImagesAndLinks ==>
      (r.Some? <==> c.image.Some? && c.link.Some?) && (r.Some? ==> r.value == c)
    ensures PolicyOf(source.kind) == ImagesOnly ==>
      (r.Some? <==> c.image.Some?) &&
      (r.Some? ==> r.value.image == c.image && r.value.link == Some(SynthesizedLink(source, c.image.value)))
    ensures PolicyOf(source.kind) == LinksOnly ==>
      (r.Some? <==> c.link.Some?) &&
      (r.Some? ==> r.value.link == c.link && r.value.image == Some(Ref(PlaceholderUrl, c.link.value.title)))
  {
    match PolicyOf(source.kind)
    case ImagesAndLinks =>
      if c.image.None? || c.link.None? then None else Some(c)
    case ImagesOnly =>
      if c.image.None? then None
      else Some(Candidate(c.image, Some(SynthesizedLink(source, c.image.value))))
    case LinksOnly =>
      if c.link.None? then None
      else Some(Candidate(Some(Ref(PlaceholderUrl, c.link.value.title)), c.link))
    case Unrecognized => Some(c)
  }

  /** After this candidate, its link key is in the table, or it never reaches `insertLink`. */
  predicate KeyPresent(ls: seq<Link>, source: Source, c: Candidate)
  {
    match Classify(source, c)
    case None => true
    case Some(k) => k.link.None? || HasLinkKey(ls, source.id, k.link.value.url)
  }

  /** The store after one iteration, and whether `linkCount` was incremented. */
  datatype Step = Step(db: Db, counted: bool)

  /** One loop iteration (src/image-report.js lines 41-85). Reading `link.url` of a missing link, or
      `image.url` of a missing image, throws inside the `try` and is swallowed
      like a duplicate; the Link inserted before such a throw stays. */
  function IngestOne(db: Db, source: Source, f: Found): (r: Step)
    ensures r.db.sources == db.sources
    ensures db.links <= r.db.links && |r.db.links| <= |db.links| + 1
    ensures db.images <= r.db.images
    ensures |r.db.images| == |db.images| + (if r.counted then 1 else 0)
    ensures forall k :: |db.links| <= k < |r.db.links| ==> r.db.links[k].status == Pending.Code()
    ensures forall k :: |db.images| <= k < |r.db.images| ==> r.db.images[k].status == Pending.Code()
    ensures var c := Classify(source, f.candidate);
      |r.db.links| > |db.links| ==>
        && c.Some? && c.value.link.Some?
        && r.db.links[|db.links|] == Link(r.db.links[|db.links|].id, source.id, c.value.link.value.url,
                                           c.value.link.value.title, None, Pending.Code(), f.outcome.linkNow)
    ensures var c := Classify(source, f.candidate);
      r.counted ==>
        && |r.db.links| == |db.links| + 1
        && c.Some? && c.value.image.Some?
        && r.db.images[|db.images|] == Image(r.db.images[|db.images|].id, r.db.links[|db.links|].id, source.id,
                                             c.value.image.value.url, Pending.Code(), f.outcome.imageNow)
    ensures r.counted ==> !f.outcome.linkThrows && !f.outcome.imageThrows
    ensures |r.db.links| > |db.links| && !r.counted ==>
      f.outcome.imageThrows || !Recognized(source.kind)
    ensures |r.db.links| > |db.links| && !r.counted ==>
      f.outcome.imageThrows || (Classify(source, f.candidate).Some? && Classify(source, f.candidate).value.image.None?)
    ensures f.outcome.linkThrows ==> r == Step(db, false)
    ensures !f.outcome.linkThrows ==> KeyPresent(r.db.links, source, f.candidate)
    ensures KeyPresent(db.links, source, f.candidate) ==> r == Step(db, false)
    ensures Valid(db) ==> Valid(r.db)
    ensures Linked(db) ==> Linked(r.db)
  {
    match Classify(source, f.candidate)
    case None => Step(db, false)
    case Some(c) =>
      if c.link.None? || f.outcome.linkThrows then Step(db, false)
      else
        match InsertLink(db, source.id, c.link.value.url, c.link.value.title, f.outcome.linkNow)
        case Err(_) => Step(db, false)
        case Ok((db1, linkId)) =>
          assert HasLinkKey(db1.links, source.id, c.link.value.url) by {
            assert db1.links[|db.links|].url == c.link.value.url;
          }
          assert LinkExists(db1.links, linkId, source.id) by {
            assert db1.links[|db.links|].id == linkId;
          }
          if c.image.None? || f.outcome.imageThrows then Step(db1, false)
          else
            var (db2, _) := InsertImage(db1, linkId, source.id, c.image.value.url, f.outcome.imageNow);
            Step(db2, true)
  }

  /** The store after the loop, and the final `linkCount`. */
  datatype Ingested = Ingested(db: Db, linkCount: nat)

  /** The loop over all candidates (src/image-report.js lines 40-86). `linkCount` is exactly the
      number of images inserted, and rows are only ever appended. */
  function IngestAll(db: Db, source: Source, found: seq<Found>): (r: Ingested)
    ensures r.db.sources == db.sources
    ensures db.links <= r.db.links && db.images <= r.db.images
    ensures |r.db.images| == |db.images| + r.linkCount
    ensures forall k :: |db.links| <= k < |r.db.links| ==> r.db.links[k].status == Pending.Code()
    ensures forall k :: |db.images| <= k < |r.db.images| ==> r.db.images[k].status == Pending.Code()
    ensures r.linkCount <= |found|
    ensures Valid(db) ==> Valid(r.db)
    ensures Linked(db) ==> Linked(r.db)
    decreases |found|
  {
    if found == [] then Ingested(db, 0)
    else
      var step := IngestOne(db, source, found[0]);
      var rest := IngestAll(step.db, source, found[1..]);
      Ingested(rest.db, rest.linkCount + (if step.counted then 1 else 0))
  }

  /** The link row a candidate leads to: this source, with the classified url and title. */
  predicate LinkFrom(l: Link, source: Source, c: Candidate)
  {
    var k := Classify(source, c);
    && k.Some? && k.value.link.Some?
    && l.sourceId == source.id && l.url == k.value.link.value.url && l.title == k.value.link.value.title
  }

  /** The image row a candidate leads to: this source, with the classified url. */
  predicate ImageFrom(i: Image, source: Source, c: Candidate)
  {
    var k := Classify(source, c);
    && k.Some? && k.value.image.Some?
    && i.sourceId == source.id && i.url == k.value.image.value.url
  }

  /** The link row is the link of one of the candidates. */
  predicate LinkFromAny(l: Link, source: Source, found: seq<Found>)
  {
    exists j :: 0 <= j < |found| && LinkFrom(l, source, found[j].candidate)
  }

  /** The image row is the image of one of the candidates. */
  predicate ImageFromAny(i: Image, source: Source, found: seq<Found>)
  {
    exists j :: 0 <= j < |found| && ImageFrom(i, source, found[j].candidate)
  }

  /** Every link appended between two tables is the link of one of the candidates. */
  predicate NewLinksFrom(before: seq<Link>, after: seq<Link>, source: Source, found: seq<Found>)
  {
    forall k :: |before| <= k < |after| ==> LinkFromAny(after[k], source, found)
  }

  /** Every image appended between two tables is the image of one of the candidates. */
  predicate NewImagesFrom(before: seq<Image>, after: seq<Image>, source: Source, found: seq<Found>)
  {
    forall k :: |before| <= k < |after| ==> ImageFromAny(after[k], source, found)
  }

  /** Every row appended between two stores is the link or the image of one of
      the candidates. */
  predicate NewRowsFrom(before: Db, after: Db, source: Source, found: seq<Found>)
  {
    NewLinksFrom(before.links, after.links, source, found) && NewImagesFrom(before.images, after.images, source, found)
  }

  /** The outcome of `downloadSource` for one source. `threw` is whether it
      rejected (a failed fetch, or a failed `updateSource`). */
  datatype SourceStep = SourceStep(db: Db, linkCount: nat, threw: bool)

  /** After a fetched page, every candidate that reached `insertLink` without a
      failure other than the key has its (source, url) key stored. */
  predicate Ingests(ls: seq<Link>, source: Source, o: SourceOutcome)
  {
    o.fetch.Page? ==>
      forall k :: 0 <= k < |o.fetch.found| && !o.fetch.found[k].outcome.linkThrows ==>
        KeyPresent(ls, source, o.fetch.found[k].candidate)
  }

  /** No candidate's `insertImage` fails. */
  predicate NoImageFailures(found: seq<Found>)
  {
    forall k :: 0 <= k < |found| ==> !found[k].outcome.imageThrows
  }

  /** The rows appended between two stores come in pairs: as many links as
      images, and the k-th new image points at the k-th new link. */
  predicate PairedGrowth(before: Db, after: Db)
  {
    && |after.links| - |before.links| == |after.images| - |before.images|
    && forall j :: |before.images| <= j < |after.images| ==>
         after.images[j].linkId == after.links[j - |before.images| + |before.links|].id
  }

  /** `downloadSource` (src/image-report.js lines 30-91): a failed fetch rejects
      before any write; otherwise every candidate is processed and then the
      source's poll time is written once. */
  function DownloadSource(db: Db, source: Source, o: SourceOutcome): (r: SourceStep)
    ensures o.fetch.FetchFailed? ==> r == SourceStep(db, 0, true)
    ensures o.fetch.Page? ==> r.threw == o.updateThrows
    ensures o.fetch.Page? ==> r.linkCount == |r.db.images| - |db.images|
    ensures Ingests(r.db.links, source, o)
    ensures o.fetch.Page? && Recognized(source.kind) && NoImageFailures(o.fetch.found) ==> PairedGrowth(db, r.db)
    ensures o.fetch.Page? ==> NewRowsFrom(db, r.db, source, o.fetch.found)
    ensures db.links <= r.db.links && db.images <= r.db.images
    ensures forall k :: |db.links| <= k < |r.db.links| ==> r.db.links[k].status == Pending.Code()
    ensures forall k :: |db.images| <= k < |r.db.images| ==> r.db.images[k].status == Pending.Code()
    ensures |r.db.sources| == |db.sources|
    ensures forall k :: 0 <= k < |db.sources| ==>
      && r.db.sources[k].(lastUpdated := db.sources[k].lastUpdated) == db.sources[k]
      && (db.sources[k].id == source.id && o.fetch.Page? && !o.updateThrows ==>
            r.db.sources[k].lastUpdated == o.now)
      && (db.sources[k].id != source.id || o.fetch.FetchFailed? || o.updateThrows ==>
            r.db.sources[k] == db.sources[k])
    ensures Valid(db) ==> Valid(r.db)
    ensures Linked(db) ==> Linked(r.db)
  {
    match o.fetch
    case FetchFailed => SourceStep(db, 0, true)
    case Page(found) =>
      var ing := IngestAll(db, source, found);
      IngestAllCoversKeys(db, source, found);
      IngestAllAppendsCandidateRows(db, source, found);
      assert Recognized(source.kind) && NoImageFailures(found) ==> PairedGrowth(db, ing.db) by {
        if Recognized(source.kind) && NoImageFailures(found) {
          InsertedLinksArePaired(db, source, found);
        }
      }
      if o.updateThrows then SourceStep(ing.db, ing.linkCount, true)
      else SourceStep(UpdateSource(ing.db, source.id, o.now), ing.linkCount, false)
  }

  /** Under `images-and-links`, a candidate missing its image or its link changes nothing. */
  lemma ImagesAndLinksNeedsBoth(db: Db, source: Source, f: Found)
    requires PolicyOf(source.kind) == ImagesAndLinks
    requires f.candidate.image.None? || f.candidate.link.None?
    ensures IngestOne(db, source, f) == Step(db, false)
  {
  }

  /** Under `images-only`, a candidate without an image changes nothing; a kept
      candidate's link is always the synthesized one, whatever link it carried. */
  lemma ImagesOnlySynthesizesLink(db: Db, source: Source, f: Found)
    requires PolicyOf(source.kind) == ImagesOnly
    ensures f.candidate.image.None? ==> IngestOne(db, source, f) == Step(db, false)
    ensures var r := IngestOne(db, source, f);
      |r.db.links| > |db.links| ==>
        && f.candidate.image.Some?
        && r.db.links[|db.links|].url == source.url + "#" + f.candidate.image.value.url
        && r.db.links[|db.links|].title == OrElse(f.candidate.image.value.title, source.title)
  {
  }

  /** Under `links-only`, a candidate without a link changes nothing; a kept
      candidate's image is always the placeholder, whatever image it carried. */
  lemma LinksOnlyUsesPlaceholder(db: Db, source: Source, f: Found)
    requires PolicyOf(source.kind) == LinksOnly
    ensures f.candidate.link.None? ==> IngestOne(db, source, f) == Step(db, false)
    ensures var r := IngestOne(db, source, f);
      r.counted ==>
        && f.candidate.link.Some?
        && r.db.links[|db.links|].url == f.candidate.link.value.url
        && r.db.images[|db.images|].url == PlaceholderUrl
  {
  }

  /** With a recognized policy and no failing `insertImage`, every Link the loop
      inserts is followed by its Image, in the same order, and the count is the
      number of such pairs. */
  lemma {:induction false} InsertedLinksArePaired(db: Db, source: Source, found: seq<Found>)
    requires Recognized(source.kind)
    requires NoImageFailures(found)
    ensures var r := IngestAll(db, source, found);
      && |r.db.links| == |db.links| + r.linkCount
      && PairedGrowth(db, r.db)
    decreases |found|
  {
    if found != [] {
      var step := IngestOne(db, source, found[0]);
      assert NoImageFailures(found[1..]) by {
        forall k | 0 <= k < |found[1..]| ensures !found[1..][k].outcome.imageThrows {
          assert found[1..][k] == found[k + 1];
        }
      }
      InsertedLinksArePaired(step.db, source, found[1..]);
      StepIsPaired(db, source, found[0]);
      var rest := IngestAll(step.db, source, found[1..]);
      PairedGrowthComposes(db, step.db, rest.db);
    }
  }

  /** One candidate of a recognized policy whose `insertImage` does not fail
      appends either nothing or a link followed by its image. */
  lemma StepIsPaired(db: Db, source: Source, f: Found)
    requires Recognized(source.kind)
    requires !f.outcome.imageThrows
    ensures PairedGrowth(db, IngestOne(db, source, f).db)
  {
  }

  lemma PairedGrowthComposes(a: Db, b: Db, c: Db)
    requires a.links <= b.links && a.images <= b.images
    requires b.links <= c.links && b.images <= c.images
    requires PairedGrowth(a, b) && PairedGrowth(b, c)
    ensures PairedGrowth(a, c)
  {
    forall j | |a.images| <= j < |c.images|
      ensures c.images[j].linkId == c.links[j - |a.images| + |a.links|].id
    {
      if j < |b.images| {
        assert c.images[j] == b.images[j];
        assert c.links[j - |a.images| + |a.links|] == b.links[j - |a.images| + |a.links|];
      }
    }
  }

  /** Under a type none of the three branches names, a candidate with a new link
      but no image gets its Link inserted and then throws on `image.url`: the
      Link is left without an Image and nothing is counted. */
  lemma UnrecognizedTypeLeavesOrphanLink(db: Db, source: Source, f: Found)
    requires !Recognized(source.kind)
    requires f.candidate.link.Some? && f.candidate.image.None?
    requires !f.outcome.linkThrows
    requires !HasLinkKey(db.links, source.id, f.candidate.link.value.url)
    ensures var r := IngestOne(db, source, f);
      && !r.counted
      && r.db.images == db.images
      && |r.db.links| == |db.links| + 1
      && r.db.links[|db.links|].sourceId == source.id
      && r.db.links[|db.links|].url == f.candidate.link.value.url
      && r.db.links[|db.links|].title == f.candidate.link.value.title
  {
  }

  /** A concrete orphan: source type `gallery`, one candidate with a link only. */
  lemma OrphanLinkExample()
    ensures var source := Source(1, Some("S"), "http://x", "gallery", 0);
      var f := Found(Candidate(None, Some(Ref("http://x/a", None))), InsertOutcome(false, false, 5, 6));
      var r := IngestOne(Db([source], [], []), source, f);
      && !r.counted
      && r.db.links == [Link(1, 1, "http://x/a", None, None, Pending.Code(), 5)]
      && r.db.images == []
  {
    var source := Source(1, Some("S"), "http://x", "gallery", 0);
    assert PolicyOf(source.kind) == Unrecognized;
  }

  /** The url of the example's synthesized link. */
  lemma ExampleLinkUrl()
    ensures "http://x" + "#" + "http://x/i.jpg" == "http://x#http://x/i.jpg"
  {
  }

  /** The `images-only` example: an image-only candidate of source `http://x`
      yields the link `http://x#http://x/i.jpg` titled `T`, each row stamped by
      its own insert. */
  lemma ImagesOnlyExample()
    ensures var source := Source(7, Some("S"), "http://x", "images-only", 0);
      var f := Found(Candidate(Some(Ref("http://x/i.jpg", Some("T"))), None), InsertOutcome(false, false, 5, 6));
      var r := IngestOne(Db([source], [], []), source, f);
      && r.counted
      && r.db.links == [Link(1, 7, "http://x#http://x/i.jpg", Some("T"), None, Pending.Code(), 5)]
      && r.db.images == [Image(1, 1, 7, "http://x/i.jpg", Pending.Code(), 6)]
  {
    ExampleLinkUrl();
  }

  /** Once every candidate's key is in the table, the loop changes nothing and counts nothing. */
  lemma {:induction false} KnownKeysAreNoOps(db: Db, source: Source, found: seq<Found>)
    requires forall k :: 0 <= k < |found| ==> KeyPresent(db.links, source, found[k].candidate)
    ensures IngestAll(db, source, found) == Ingested(db, 0)
    decreases |found|
  {
    if found != [] {
      KnownKeysAreNoOps(db, source, found[1..]);
    }
  }

  /** KeyPresent survives appending rows. */
  lemma KeyPresentGrows(ls: seq<Link>, more: seq<Link>, source: Source, c: Candidate)
    requires ls <= more
    requires KeyPresent(ls, source, c)
    ensures KeyPresent(more, source, c)
  {
    match Classify(source, c)
    case None =>
    case Some(k) =>
      if k.link.Some? {
        HasLinkKeyGrows(ls, more, source.id, k.link.value.url);
      }
  }

  /** Ingests survives appending rows. */
  lemma IngestsGrows(ls: seq<Link>, more: seq<Link>, source: Source, o: SourceOutcome)
    requires ls <= more
    requires Ingests(ls, source, o)
    ensures Ingests(more, source, o)
  {
    if o.fetch.Page? {
      forall k | 0 <= k < |o.fetch.found| && !o.fetch.found[k].outcome.linkThrows
        ensures KeyPresent(more, source, o.fetch.found[k].candidate)
      {
        KeyPresentGrows(ls, more, source, o.fetch.found[k].candidate);
      }
    }
  }

  /** The loop leaves the key of every candidate whose `insertLink` did not fail
      for another reason in the table, whatever happened to the other candidates. */
  lemma {:induction false} IngestAllCoversKeys(db: Db, source: Source, found: seq<Found>)
    ensures forall k :: 0 <= k < |found| && !found[k].outcome.linkThrows ==>
      KeyPresent(IngestAll(db, source, found).db.links, source, found[k].candidate)
    decreases |found|
  {
    if found != [] {
      var step := IngestOne(db, source, found[0]);
      var r := IngestAll(db, source, found);
      IngestAllCoversKeys(step.db, source, found[1..]);
      if !found[0].outcome.linkThrows {
        KeyPresentGrows(step.db.links, r.db.links, source, found[0].candidate);
      }
      forall k | 0 <= k < |found| && !found[k].outcome.linkThrows
        ensures KeyPresent(r.db.links, source, found[k].candidate)
      {
        if k > 0 {
          assert found[k] == found[1..][k - 1];
        }
      }
    }
  }

  /** The loop appends only rows of its candidates: each new link is a
      candidate's classified link of this source, each new image a candidate's
      classified image. */
  lemma {:induction false} IngestAllAppendsCandidateRows(db: Db, source: Source, found: seq<Found>)
    ensures NewRowsFrom(db, IngestAll(db, source, found).db, source, found)
    decreases |found|
  {
    if found != [] {
      var step := IngestOne(db, source, found[0]);
      var rest := IngestAll(step.db, source, found[1..]);
      assert IngestAll(db, source, found).db == rest.db;
      IngestAllAppendsCandidateRows(step.db, source, found[1..]);
      StepAppendsCandidateRows(db, source, found[0]);
      NewRowsFromCons(db, step.db, rest.db, source, found);
    }
  }

  /** One candidate appends only its own classified link and image. */
  lemma StepAppendsCandidateRows(db: Db, source: Source, f: Found)
    ensures var s := IngestOne(db, source, f).db;
      && (forall k :: |db.links| <= k < |s.links| ==> LinkFrom(s.links[k], source, f.candidate))
      && (forall k :: |db.images| <= k < |s.images| ==> ImageFrom(s.images[k], source, f.candidate))
  {
  }

  lemma NewRowsFromCons(a: Db, b: Db, c: Db, source: Source, found: seq<Found>)
    requires found != []
    requires a.links <= b.links <= c.links && a.images <= b.images <= c.images
    requires forall k :: |a.links| <= k < |b.links| ==> LinkFrom(b.links[k], source, found[0].candidate)
    requires forall k :: |a.images| <= k < |b.images| ==> ImageFrom(b.images[k], source, found[0].candidate)
    requires NewRowsFrom(b, c, source, found[1..])
    ensures NewRowsFrom(a, c, source, found)
  {
    NewLinksFromCons(a.links, b.links, c.links, source, found);
    NewImagesFromCons(a.images, b.images, c.images, source, found);
  }

  lemma NewLinksFromCons(a: seq<Link>, b: seq<Link>, c: seq<Link>, source: Source, found: seq<Found>)
    requires found != [] && a <= b <= c
    requires forall k :: |a| <= k < |b| ==> LinkFrom(b[k], source, found[0].candidate)
    requires NewLinksFrom(b, c, source, found[1..])
    ensures NewLinksFrom(a, c, source, found)
  {
    forall k | |a| <= k < |c| ensures LinkFromAny(c[k], source, found) {
      if k < |b| {
        assert c[k] == b[k];
        assert 0 < |found| && LinkFrom(c[k], source, found[0].candidate);
      } else {
        assert LinkFromAny(c[k], source, found[1..]);
        var j :| 0 <= j < |found[1..]| && LinkFrom(c[k], source, found[1..][j].candidate);
        assert found[1..][j] == found[j + 1];
        assert j + 1 < |found| && LinkFrom(c[k], source, found[j + 1].candidate);
      }
    }
  }

  lemma NewImagesFromCons(a: seq<Image>, b: seq<Image>, c: seq<Image>, source: Source, found: seq<Found>)
    requires found != [] && a <= b <= c
    requires forall k :: |a| <= k < |b| ==> ImageFrom(b[k], source, found[0].candidate)
    requires NewImagesFrom(b, c, source, found[1..])
    ensures NewImagesFrom(a, c, source, found)
  {
    forall k | |a| <= k < |c| ensures ImageFromAny(c[k], source, found) {
      if k < |b| {
        assert c[k] == b[k];
        assert 0 < |found| && ImageFrom(c[k], source, found[0].candidate);
      } else {
        assert ImageFromAny(c[k], source, found[1..]);
        var j :| 0 <= j < |found[1..]| && ImageFrom(c[k], source, found[1..][j].candidate);
        assert found[1..][j] == found[j + 1];
        assert j + 1 < |found| && ImageFrom(c[k], source, found[j + 1].candidate);
      }
    }
  }

  /** Ingesting the same candidates a second time, after a first pass in which no
      `insertLink` failed, leaves the store as it was and counts nothing. */
  lemma ReingestIsNoOp(db: Db, source: Source, found: seq<Found>, again: seq<Found>)
    requires forall k :: 0 <= k < |found| ==> !found[k].outcome.linkThrows
    requires |again| == |found|
    requires forall k :: 0 <= k < |found| ==> again[k].candidate == found[k].candidate
    ensures var first := IngestAll(db, source, found);
      IngestAll(first.db, source, again) == Ingested(first.db, 0)
  {
    var first := IngestAll(db, source, found);
    IngestAllCoversKeys(db, source, found);
    KnownKeysAreNoOps(first.db, source, again);
  }
}

=== FILE: orchestrator.dfy ===
/** `main`: the configuration checks, then polling every source, downloading
    every pending image, selecting the matches since the start time, and the
    two independent emission targets. Each source and each image is a unit
    whose rejection is caught, so the loops always run to the end. */
module Orchestrator {
  import opened Basics
  import opened Records
  import opened Store
  import opened Query
  import opened Ingest
  import opened Download

  /** The process environment. */
  type Env = map<string, string>

  function Var(env: Env, key: string): Option<string>
  {
    if key in env then Some(env[key]) else None
  }

  /** `shouldGenReport`: a reports directory is configured. */
  function ShouldGenReport(env: Env): (r: bool)
    ensures r <==> "REPORTS_DIR" in env && env["REPORTS_DIR"] != ""
  {
    Truthy(Var(env, "REPORTS_DIR"))
  }

  /** The settings the mail target needs, `BASE_URL` among them. */
  const MailSettings: set<string> :=
    {"AWS_ACCESS_KEY_ID", "AWS_SECRET_ACCESS_KEY", "EMAIL_TO", "EMAIL_FROM", "BASE_URL"}

  /** `shouldSendEmailReport`: all five mail settings are configured. */
  function ShouldSendEmailReport(env: Env): (r: bool)
    ensures r <==> forall key :: key in MailSettings ==> key in env && env[key] != ""
  {
    && Truthy(Var(env, "AWS_ACCESS_KEY_ID"))
    && Truthy(Var(env, "AWS_SECRET_ACCESS_KEY"))
    && Truthy(Var(env, "EMAIL_TO"))
    && Truthy(Var(env, "EMAIL_FROM"))
    && Truthy(Var(env, "BASE_URL"))
  }

  /** What the collaborators do during a run, per source id and per image id. */
  datatype World = World(source: int -> SourceOutcome, image: int -> DownloadOutcome)

  /** Some source of the list has this id. */
  predicate Lists(ss: seq<Source>, id: int)
  {
    exists j :: 0 <= j < |ss| && ss[j].id == id
  }

  /** Some image of the list has this id. */
  predicate ListsImage(ims: seq<Image>, id: int)
  {
    exists j :: 0 <= j < |ims| && ims[j].id == id
  }

  lemma ListsSplit(ss: seq<Source>)
    requires ss != []
    ensures forall id :: Lists(ss, id) <==> ss[0].id == id || Lists(ss[1..], id)
  {
    forall id ensures Lists(ss, id) <==> ss[0].id == id || Lists(ss[1..], id) {
      if Lists(ss, id) && ss[0].id != id {
        var j :| 0 <= j < |ss| && ss[j].id == id;
        assert ss[1..][j - 1].id == id;
      }
      if Lists(ss[1..], id) {
        var j :| 0 <= j < |ss[1..]| && ss[1..][j].id == id;
        assert ss[j + 1].id == id;
      }
    }
  }

  lemma ListsImageSplit(ims: seq<Image>)
    requires ims != []
    ensures forall id :: ListsImage(ims, id) <==> ims[0].id == id || ListsImage(ims[1..], id)
  {
    forall id ensures ListsImage(ims, id) <==> ims[0].id == id || ListsImage(ims[1..], id) {
      if ListsImage(ims, id) && ims[0].id != id {
        var j :| 0 <= j < |ims| && ims[j].id == id;
        assert ims[1..][j - 1].id == id;
      }
      if ListsImage(ims[1..], id) {
        var j :| 0 <= j < |ims[1..]| && ims[1..][j].id == id;
        assert ims[j + 1].id == id;
      }
    }
  }

  /** The source's page was fetched and its poll time written. */
  predicate Refreshed(o: SourceOutcome)
  {
    o.fetch.Page? && !o.updateThrows
  }

  /** A status `downloadImage` may write. */
  predicate Terminal(code: int)
  {
    code == Active.Code() || code == Failed.Code()
  }

  /** The store after the source loop and the ids of the sources attempted. */
  datatype Polled = Polled(db: Db, attempted: seq<int>)

  /** Every listed source whose page was fetched has its candidates' keys stored. */
  predicate IngestedAll(ls: seq<Link>, ss: seq<Source>, w: World)
  {
    forall i :: 0 <= i < |ss| ==> Ingests(ls, ss[i], w.source(ss[i].id))
  }

  /** The source loop (src/image-report.js lines 164-173): every source is attempted in order and
      a rejection is caught. A source's poll time changes exactly when its page
      was fetched and `updateSource` succeeded; nothing else of it changes. */
  function PollSources(db: Db, ss: seq<Source>, w: World): (r: Polled)
    ensures |r.attempted| == |ss| && forall k :: 0 <= k < |ss| ==> r.attempted[k] == ss[k].id
    ensures db.links <= r.db.links && db.images <= r.db.images
    ensures forall k :: |db.links| <= k < |r.db.links| ==> r.db.links[k].status == Pending.Code()
    ensures forall k :: |db.images| <= k < |r.db.images| ==> r.db.images[k].status == Pending.Code()
    ensures |r.db.sources| == |db.sources|
    ensures forall k :: 0 <= k < |db.sources| ==>
      && r.db.sources[k].(lastUpdated := db.sources[k].lastUpdated) == db.sources[k]
      && r.db.sources[k].lastUpdated ==
           (if Lists(ss, db.sources[k].id) && Refreshed(w.source(db.sources[k].id))
            then w.source(db.sources[k].id).now
            else db.sources[k].lastUpdated)
    ensures IngestedAll(r.db.links, ss, w)
    ensures Valid(db) ==> Valid(r.db)
    ensures Linked(db) ==> Linked(r.db)
    decreases |ss|
  {
    if ss == [] then Polled(db, [])
    else
      var step := DownloadSource(db, ss[0], w.source(ss[0].id));
      var rest := PollSources(step.db, ss[1..], w);
      ListsSplit(ss);
      IngestedAllCons(step.db.links, rest.db.links, ss, w);
      Polled(rest.db, [ss[0].id] + rest.attempted)
  }

  /** The first source's keys survive the rest of the loop. */
  lemma IngestedAllCons(first: seq<Link>, last: seq<Link>, ss: seq<Source>, w: World)
    requires ss != [] && first <= last
    requires Ingests(first, ss[0], w.source(ss[0].id))
    requires IngestedAll(last, ss[1..], w)
    ensures IngestedAll(last, ss, w)
  {
    IngestsGrows(first, last, ss[0], w.source(ss[0].id));
    forall i | 0 <= i < |ss| ensures Ingests(last, ss[i], w.source(ss[i].id)) {
      if i > 0 {
        assert ss[i] == ss[1..][i - 1];
      }
    }
  }

  /** The link is one of a candidate's links on the source's fetched page. */
  predicate LinkFromPage(l: Link, source: Source, o: SourceOutcome)
  {
    o.fetch.Page? && LinkFromAny(l, source, o.fetch.found)
  }

  /** The image is one of a candidate's images on the source's fetched page. */
  predicate ImageFromPage(i: Image, source: Source, o: SourceOutcome)
  {
    o.fetch.Page? && ImageFromAny(i, source, o.fetch.found)
  }

  /** The link comes from the fetched page of one of the listed sources. */
  predicate LinkFromSources(l: Link, ss: seq<Source>, w: World)
  {
    exists i :: 0 <= i < |ss| && LinkFromPage(l, ss[i], w.source(ss[i].id))
  }

  /** The image comes from the fetched page of one of the listed sources. */
  predicate ImageFromSources(im: Image, ss: seq<Source>, w: World)
  {
    exists i :: 0 <= i < |ss| && ImageFromPage(im, ss[i], w.source(ss[i].id))
  }

  /** Every row appended between two stores is a candidate's row of a listed
      source whose page was fetched. */
  predicate NewRowsFromSources(before: Db, after: Db, ss: seq<Source>, w: World)
  {
    && (forall k :: |before.links| <= k < |after.links| ==> LinkFromSources(after.links[k], ss, w))
    && (forall k :: |before.images| <= k < |after.images| ==> ImageFromSources(after.images[k], ss, w))
  }

  /** The source loop appends only rows of the listed sources' candidates. */
  lemma {:induction false} PollSourcesAppendsCandidateRows(db: Db, ss: seq<Source>, w: World)
    ensures NewRowsFromSources(db, PollSources(db, ss, w).db, ss, w)
    decreases |ss|
  {
    if ss != [] {
      var o := w.source(ss[0].id);
      var step := DownloadSource(db, ss[0], o);
      var rest := PollSources(step.db, ss[1..], w);
      assert PollSources(db, ss, w).db == rest.db;
      PollSourcesAppendsCandidateRows(step.db, ss[1..], w);
      assert forall k :: |db.links| <= k < |step.db.links| ==> LinkFromPage(step.db.links[k], ss[0], o) by {
        if o.fetch.Page? {
          assert NewLinksFrom(db.links, step.db.links, ss[0], o.fetch.found);
        }
      }
      assert forall k :: |db.images| <= k < |step.db.images| ==> ImageFromPage(step.db.images[k], ss[0], o) by {
        if o.fetch.Page? {
          assert NewImagesFrom(db.images, step.db.images, ss[0], o.fetch.found);
        }
      }
      NewLinksFromSourcesCons(db.links, step.db.links, rest.db.links, ss, w);
      NewImagesFromSourcesCons(db.images, step.db.images, rest.db.images, ss, w);
    }
  }

  lemma NewLinksFromSourcesCons(a: seq<Link>, b: seq<Link>, c: seq<Link>, ss: seq<Source>, w: World)
    requires ss != [] && a <= b <= c
    requires forall k :: |a| <= k < |b| ==> LinkFromPage(b[k], ss[0], w.source(ss[0].id))
    requires forall k :: |b| <= k < |c| ==> LinkFromSources(c[k], ss[1..], w)
    ensures forall k :: |a| <= k < |c| ==> LinkFromSources(c[k], ss, w)
  {
    forall k | |a| <= k < |c| ensures LinkFromSources(c[k], ss, w) {
      if k < |b| {
        assert c[k] == b[k];
        assert LinkFromPage(c[k], ss[0], w.source(ss[0].id));
      } else {
        var i :| 0 <= i < |ss[1..]| && LinkFromPage(c[k], ss[1..][i], w.source(ss[1..][i].id));
        assert ss[1..][i] == ss[i + 1];
      }
    }
  }

  lemma NewImagesFromSourcesCons(a: seq<Image>, b: seq<Image>, c: seq<Image>, ss: seq<Source>, w: World)
    requires ss != [] && a <= b <= c
    requires forall k :: |a| <= k < |b| ==> ImageFromPage(b[k], ss[0], w.source(ss[0].id))
    requires forall k :: |b| <= k < |c| ==> ImageFromSources(c[k], ss[1..], w)
    ensures forall k :: |a| <= k < |c| ==> ImageFromSources(c[k], ss, w)
  {
    forall k | |a| <= k < |c| ensures ImageFromSources(c[k], ss, w) {
      if k < |b| {
        assert c[k] == b[k];
        assert ImageFromPage(c[k], ss[0], w.source(ss[0].id));
      } else {
        var i :| 0 <= i < |ss[1..]| && ImageFromPage(c[k], ss[1..][i], w.source(ss[1..][i].id));
        assert ss[1..][i] == ss[i + 1];
      }
    }
  }

  /** Whether an image comes from the sources' candidates depends only on its
      source and url. */
  lemma ImageFromSourcesSameRow(a: Image, b: Image, ss: seq<Source>, w: World)
    requires a.sourceId == b.sourceId && a.url == b.url
    requires ImageFromSources(a, ss, w)
    ensures ImageFromSources(b, ss, w)
  {
    var i :| 0 <= i < |ss| && ImageFromPage(a, ss[i], w.source(ss[i].id));
    var found := w.source(ss[i].id).fetch.found;
    var j :| 0 <= j < |found| && ImageFrom(a, ss[i], found[j].candidate);
    assert ImageFrom(b, ss[i], found[j].candidate);
    assert ImageFromPage(b, ss[i], w.source(ss[i].id));
  }

  /** How the image loop may leave one row: only status and time change; a row
      the loop does not list, or whose `updateImage` throws, is untouched; a
      listed row whose `updateImage` succeeded is terminal and stamped with
      that call's clock. */
  predicate RowOutcome(before: Image, after: Image, listed: bool, o: DownloadOutcome)
  {
    && after.(status := before.status, lastUpdated := before.lastUpdated) == before
    && (!listed || o.updateThrows ==> after == before)
    && (listed && !o.updateThrows ==> Terminal(after.status) && after.lastUpdated == o.now)
  }

  /** The row carries what `downloadImage` wrote for it: 2 when its payload was
      fetched and saved, -1 otherwise, stamped with the update's clock. */
  predicate Processed(row: Image, o: DownloadOutcome)
  {
    && row.lastUpdated == o.now
    && row.status == (if Succeeds(row.url, o) then Active else Failed).Code()
  }

  /** Each listed image has the url of the row with its id. */
  predicate UrlsAgree(ims: seq<Image>, rows: seq<Image>)
  {
    forall j, k :: 0 <= j < |ims| && 0 <= k < |rows| && ims[j].id == rows[k].id ==> ims[j].url == rows[k].url
  }

  /** The store after the image loop and the ids of the images attempted. */
  datatype Downloaded = Downloaded(db: Db, attempted: seq<int>)

  /** The image loop (src/image-report.js lines 178-187): every listed image is attempted in order
      and a rejection is caught. An image the list does not name is untouched;
      one it names ends at a terminal status unless its `updateImage` threw. */
  function DownloadAll(db: Db, ims: seq<Image>, w: World): (r: Downloaded)
    ensures |r.attempted| == |ims| && forall k :: 0 <= k < |ims| ==> r.attempted[k] == ims[k].id
    ensures r.db.sources == db.sources && r.db.links == db.links
    ensures |r.db.images| == |db.images|
    ensures forall k :: 0 <= k < |db.images| ==>
      RowOutcome(db.images[k], r.db.images[k], ListsImage(ims, db.images[k].id), w.image(db.images[k].id))
    ensures Valid(db) ==> Valid(r.db)
    ensures Linked(db) ==> Linked(r.db)
    decreases |ims|
  {
    if ims == [] then Downloaded(db, [])
    else
      var step := DownloadImage(db, ims[0], w.image(ims[0].id));
      var rest := DownloadAll(step.db, ims[1..], w);
      ListsImageSplit(ims);
      Downloaded(rest.db, [ims[0].id] + rest.attempted)
  }

  /** The store after both loops, and the ids attempted by each. */
  datatype Crawled = Crawled(db: Db, polled: seq<int>, downloaded: seq<int>)

  /** Every image that was pending in `before`, or is new since, is still
      pending if its `updateImage` threw and otherwise carries what its
      download chose. */
  predicate ProcessedSince(before: Db, after: Db, w: World)
  {
    forall k :: 0 <= k < |after.images| && (k >= |before.images| || before.images[k].status == Pending.Code()) ==>
      if w.image(after.images[k].id).updateThrows then after.images[k].status == Pending.Code()
      else Processed(after.images[k], w.image(after.images[k].id))
  }

  /** src/image-report.js lines 164-187: the source loop over `getSources`, then
      the image loop over `getPendingImages` as it stands after the source loop. */
  function Crawl(db: Db, w: World): (r: Crawled)
    ensures |r.polled| == |db.sources| && forall k :: 0 <= k < |db.sources| ==> r.polled[k] == db.sources[k].id
    ensures IngestedAll(r.db.links, db.sources, w)
    ensures |r.db.sources| == |db.sources|
    ensures forall k :: 0 <= k < |db.sources| ==>
      r.db.sources[k].(lastUpdated := db.sources[k].lastUpdated) == db.sources[k]
    ensures Valid(db) ==> ProcessedSince(db, r.db, w)
    ensures Valid(db) ==> Valid(r.db)
    ensures Linked(db) ==> Linked(r.db)
  {
    var polled := PollSources(db, GetSources(db), w);
    var downloaded := DownloadAll(polled.db, GetPendingImages(polled.db), w);
    assert Valid(db) ==> ProcessedSince(db, downloaded.db, w) by {
      if Valid(db) {
        PollThenDownloadProcesses(db, polled.db, w);
      }
    }
    Crawled(downloaded.db, polled.attempted, downloaded.attempted)
  }

  /** Every image still at status 1 is one whose `updateImage` threw. */
  predicate Settled(ims: seq<Image>, w: World)
  {
    forall k :: 0 <= k < |ims| && ims[k].status == Pending.Code() ==> w.image(ims[k].id).updateThrows
  }

  /** Downloading the pending images of a store leaves pending only those
      whose `updateImage` threw. */
  lemma DownloadingPendingFinishesThem(db: Db, w: World)
    ensures Settled(DownloadAll(db, GetPendingImages(db), w).db.images, w)
  {
    var pending := GetPendingImages(db);
    var d := DownloadAll(db, pending, w);
    forall k | 0 <= k < |d.db.images| && d.db.images[k].status == Pending.Code()
      ensures w.image(d.db.images[k].id).updateThrows
    {
      var img := db.images[k];
      assert RowOutcome(img, d.db.images[k], ListsImage(pending, img.id), w.image(img.id));
      StillPendingThrew(db, pending, k, d.db.images[k], w.image(img.id));
    }
  }

  /** A row still pending after the image loop over the pending images was
      pending before, so the loop listed it, and its `updateImage` threw. */
  lemma StillPendingThrew(db: Db, pending: seq<Image>, k: int, after: Image, o: DownloadOutcome)
    requires pending == GetPendingImages(db)
    requires 0 <= k < |db.images|
    requires RowOutcome(db.images[k], after, ListsImage(pending, db.images[k].id), o)
    requires after.status == Pending.Code()
    ensures after.id == db.images[k].id && o.updateThrows
  {
    var img := db.images[k];
    assert after == img;
    assert img in pending;
    var j :| 0 <= j < |pending| && pending[j] == img;
    assert ListsImage(pending, img.id);
  }

  /** In a well-formed store, a row that is not pending is not listed by the
      pending query, since no pending row shares its id. */
  lemma SettledRowNotListed(db: Db, pending: seq<Image>, k: int)
    requires Valid(db)
    requires pending == GetPendingImages(db)
    requires 0 <= k < |db.images| && db.images[k].status != Pending.Code()
    ensures !ListsImage(pending, db.images[k].id)
  {
    forall j | 0 <= j < |pending| ensures pending[j].id != db.images[k].id {
      assert pending[j] in db.images;
      var m :| 0 <= m < |db.images| && db.images[m] == pending[j];
      assert m != k;
    }
  }

  /** With agreeing urls, every listed row whose `updateImage` succeeds ends
      with the status its own download chose. */
  lemma {:induction false} DownloadAllProcesses(db: Db, ims: seq<Image>, w: World)
    requires UrlsAgree(ims, db.images)
    ensures var r := DownloadAll(db, ims, w);
      forall k :: 0 <= k < |db.images| && ListsImage(ims, db.images[k].id) && !w.image(db.images[k].id).updateThrows ==>
        Processed(r.db.images[k], w.image(db.images[k].id))
    decreases |ims|
  {
    if ims != [] {
      var o := w.image(ims[0].id);
      var step := DownloadImage(db, ims[0], o);
      var rest := DownloadAll(step.db, ims[1..], w);
      assert DownloadAll(db, ims, w).db == rest.db;
      assert UrlsAgree(ims[1..], step.db.images) by {
        forall j, k | 0 <= j < |ims[1..]| && 0 <= k < |step.db.images| && ims[1..][j].id == step.db.images[k].id
          ensures ims[1..][j].url == step.db.images[k].url
        {
          assert ims[1..][j] == ims[j + 1];
          assert step.db.images[k].url == db.images[k].url && step.db.images[k].id == db.images[k].id;
        }
      }
      DownloadAllProcesses(step.db, ims[1..], w);
      ListsImageSplit(ims);
      forall k | 0 <= k < |db.images| && ListsImage(ims, db.images[k].id) && !w.image(db.images[k].id).updateThrows
        ensures Processed(rest.db.images[k], w.image(db.images[k].id))
      {
        var before, mid := db.images[k], step.db.images[k];
        assert mid.id == before.id && mid.url == before.url;
        assert RowOutcome(mid, rest.db.images[k], ListsImage(ims[1..], mid.id), w.image(mid.id));
        if !ListsImage(ims[1..], before.id) {
          assert before.id == ims[0].id && ims[0].url == before.url;
          assert step.db == UpdateImage(db, ims[0].id, step.status.Code(), o.now);
          assert Processed(mid, o);
        }
      }
    }
  }

  /** In a well-formed store, the pending query lists each row under its own url. */
  lemma PendingAgrees(db: Db)
    requires Valid(db)
    ensures UrlsAgree(GetPendingImages(db), db.images)
  {
    var pending := GetPendingImages(db);
    forall j, k | 0 <= j < |pending| && 0 <= k < |db.images| && pending[j].id == db.images[k].id
      ensures pending[j].url == db.images[k].url
    {
      assert pending[j] in db.images;
      var m :| 0 <= m < |db.images| && db.images[m] == pending[j];
      assert m == k;
    }
  }

  /** The image loop over what the source loop left: every row pending before
      the source loop, or created by it, is processed unless its update threw. */
  lemma PollThenDownloadProcesses(db: Db, polled: Db, w: World)
    requires Valid(db)
    requires polled == PollSources(db, GetSources(db), w).db
    ensures ProcessedSince(db, DownloadAll(polled, GetPendingImages(polled), w).db, w)
  {
    var pending := GetPendingImages(polled);
    var r := DownloadAll(polled, pending, w);
    PendingAgrees(polled);
    DownloadAllProcesses(polled, pending, w);
    forall k | 0 <= k < |r.db.images| && (k >= |db.images| || db.images[k].status == Pending.Code())
      ensures if w.image(r.db.images[k].id).updateThrows then r.db.images[k].status == Pending.Code()
              else Processed(r.db.images[k], w.image(r.db.images[k].id))
    {
      var img := polled.images[k];
      assert img.status == Pending.Code() by {
        if k < |db.images| { assert img == db.images[k]; }
      }
      assert img in pending;
      var j :| 0 <= j < |pending| && pending[j] == img;
      assert ListsImage(pending, img.id);
      assert RowOutcome(img, r.db.images[k], true, w.image(img.id));
    }
  }

  /** Both loops together append only rows of the store's sources' candidates:
      the image loop changes only status and time. */
  lemma CrawlAppendsCandidateRows(db: Db, w: World)
    ensures NewRowsFromSources(db, Crawl(db, w).db, db.sources, w)
  {
    var polled := PollSources(db, GetSources(db), w);
    var pending := GetPendingImages(polled.db);
    var r := DownloadAll(polled.db, pending, w);
    assert r.db == Crawl(db, w).db;
    assert GetSources(db) == db.sources;
    PollSourcesAppendsCandidateRows(db, db.sources, w);
    forall k | |db.images| <= k < |r.db.images| ensures ImageFromSources(r.db.images[k], db.sources, w) {
      var before := polled.db.images[k];
      assert RowOutcome(before, r.db.images[k], ListsImage(pending, before.id), w.image(before.id));
      ImageFromSourcesSameRow(before, r.db.images[k], db.sources, w);
    }
  }

  /** After both loops, an image still pending is one whose `updateImage` threw. */
  lemma CrawlLeavesNoPendingImage(db: Db, w: World)
    ensures Settled(Crawl(db, w).db.images, w)
  {
    var polled := PollSources(db, GetSources(db), w).db;
    DownloadingPendingFinishesThem(polled, w);
    assert Crawl(db, w).db == DownloadAll(polled, GetPendingImages(polled), w).db;
  }

  /** The loops write status 1 only into rows they create: every image that
      was not pending keeps its status, and every existing link keeps its row. */
  lemma CrawlNeverResetsStatus(db: Db, w: World)
    requires Valid(db)
    ensures var r := Crawl(db, w);
      && db.links <= r.db.links
      && |db.images| <= |r.db.images|
      && forall k :: 0 <= k < |db.images| ==>
           && r.db.images[k].id == db.images[k].id
           && (db.images[k].status != Pending.Code() ==> r.db.images[k] == db.images[k])
  {
    var polled := PollSources(db, GetSources(db), w);
    var pending := GetPendingImages(polled.db);
    var r := DownloadAll(polled.db, pending, w);
    assert r.db == Crawl(db, w).db;
    forall k | 0 <= k < |db.images|
      ensures r.db.images[k].id == db.images[k].id
      ensures db.images[k].status != Pending.Code() ==> r.db.images[k] == db.images[k]
    {
      var img := polled.db.images[k];
      assert img == db.images[k];
      assert RowOutcome(img, r.db.images[k], ListsImage(pending, img.id), w.image(img.id));
      if img.status != Pending.Code() {
        SettledRowNotListed(polled.db, pending, k);
      }
    }
  }

  /** Polling stamps a source exactly when its page was fetched and the stamp
      was written; a failed fetch leaves the source's time as it was. */
  lemma CrawlRefreshesFetchedSources(db: Db, w: World)
    ensures var r := Crawl(db, w);
      && |r.db.sources| == |db.sources|
      && forall k :: 0 <= k < |db.sources| ==>
           r.db.sources[k].lastUpdated ==
             (if Refreshed(w.source(db.sources[k].id)) then w.source(db.sources[k].id).now
              else db.sources[k].lastUpdated)
  {
    forall k | 0 <= k < |db.sources| ensures Lists(db.sources, db.sources[k].id) {
    }
  }

  /** The loops never write status 2 to a link: every link they create is pending
      and every existing link keeps its row. */
  lemma CrawlWritesNoActiveLink(db: Db, w: World)
    requires forall k :: 0 <= k < |db.links| ==> db.links[k].status != Active.Code()
    ensures var r := Crawl(db, w);
      forall k :: 0 <= k < |r.db.links| ==> r.db.links[k].status != Active.Code()
  {
    var polled := PollSources(db, GetSources(db), w);
    var r := Crawl(db, w);
    assert r.db.links == polled.db.links;
    forall k | 0 <= k < |r.db.links| ensures r.db.links[k].status != Active.Code() {
      if k < |db.links| {
        assert r.db.links[k] == db.links[k];
      }
    }
  }

  /** How `main` ended: `process.exit(1)` for a missing database path or for
      no emission target, or a completed run. */
  datatype Exit = NoDbPath | NoEmissionTarget | Finished

  /** Which targets were attempted, and whether the report was produced. The
      mail is handed to `sendEmail` without being awaited, so only its attempt
      is observable. */
  datatype Emission = Emission(reportAttempted: bool, reportWritten: bool, emailAttempted: bool)

  const Silent := Emission(false, false, false)

  /** src/image-report.js lines 193-217: nothing on an empty result; otherwise each enabled target
      in its own `try`. */
  function Emit(env: Env, matches: seq<Match>, reportOk: bool): (r: Emission)
    ensures matches == [] ==> r == Silent
    ensures matches != [] ==>
      r.reportAttempted == ShouldGenReport(env) && r.emailAttempted == ShouldSendEmailReport(env)
    ensures r.reportWritten <==> r.reportAttempted && reportOk
  {
    if matches == [] then Silent
    else
      var gen := ShouldGenReport(env);
      Emission(gen, gen && reportOk, ShouldSendEmailReport(env))
  }

  /** Everything a run does. */
  datatype RunResult = RunResult(exit: Exit, db: Db, polled: seq<int>, downloaded: seq<int>,
                                 matches: seq<Match>, emission: Emission)

  /** `main` with the start time it captured (src/image-report.js lines 19-22
      and 154-218).
      `reportOk` is whether `genReport` succeeds. */
  function Run(env: Env, db: Db, w: World, reportOk: bool, startTime: int): (r: RunResult)
    ensures r.exit == NoDbPath <==> !Truthy(Var(env, "DB_PATH"))
    ensures r.exit == NoEmissionTarget <==>
      Truthy(Var(env, "DB_PATH")) && !ShouldGenReport(env) && !ShouldSendEmailReport(env)
    ensures r.exit != Finished ==>
      r.db == db && r.polled == [] && r.downloaded == [] && r.matches == [] && r.emission == Silent
    ensures r.exit == Finished ==>
      |r.polled| == |db.sources| && forall k :: 0 <= k < |db.sources| ==> r.polled[k] == db.sources[k].id
    ensures r.exit == Finished ==>
      forall m :: m in r.matches <==> Produces(r.db, startTime, m)
    ensures r.exit == Finished ==>
      && NewestFirst(r.matches)
      && multiset(r.matches) == multiset(JoinLinks(r.db.links, r.db.images, r.db.sources, startTime))
    ensures r.exit == Finished && Valid(db) ==> OneRowPerImage(r.matches)
    ensures r.emission.reportAttempted <==> r.exit == Finished && r.matches != [] && ShouldGenReport(env)
    ensures r.emission.emailAttempted <==> r.exit == Finished && r.matches != [] && ShouldSendEmailReport(env)
    ensures r.emission.reportWritten <==> r.emission.reportAttempted && reportOk
    ensures r.exit == Finished ==> IngestedAll(r.db.links, db.sources, w)
    ensures |r.db.sources| == |db.sources|
    ensures forall k :: 0 <= k < |db.sources| ==>
      r.db.sources[k].(lastUpdated := db.sources[k].lastUpdated) == db.sources[k]
    ensures r.exit == Finished && Valid(db) ==> ProcessedSince(db, r.db, w)
    ensures Valid(db) ==> Valid(r.db)
    ensures Linked(db) ==> Linked(r.db)
  {
    if !Truthy(Var(env, "DB_PATH")) then RunResult(NoDbPath, db, [], [], [], Silent)
    else if !ShouldGenReport(env) && !ShouldSendEmailReport(env) then
      RunResult(NoEmissionTarget, db, [], [], [], Silent)
    else
      var crawled := Crawl(db, w);
      var matches := GetLatestMatches(crawled.db, startTime);
      assert Valid(db) ==> OneRowPerImage(matches) by {
        if Valid(db) {
          MatchesOnePerImage(crawled.db, startTime);
        }
      }
      RunResult(Finished, crawled.db, crawled.polled, crawled.downloaded,
                matches, Emit(env, matches, reportOk))
  }

  /** After a completed run, an image still pending is one whose `updateImage` threw. */
  lemma RunLeavesNoPendingImage(env: Env, db: Db, w: World, reportOk: bool, startTime: int)
    ensures var r := Run(env, db, w, reportOk, startTime);
      r.exit == Finished ==> Settled(r.db.images, w)
  {
    CrawlLeavesNoPendingImage(db, w);
  }

  /** A run never returns a row to status 1: images that were not pending keep
      their status, and existing links keep their rows. */
  lemma RunNeverResetsStatus(env: Env, db: Db, w: World, reportOk: bool, startTime: int)
    requires Valid(db)
    ensures var r := Run(env, db, w, reportOk, startTime);
      && db.links <= r.db.links
      && |db.images| <= |r.db.images|
      && forall k :: 0 <= k < |db.images| ==>
           && r.db.images[k].id == db.images[k].id
           && (db.images[k].status != Pending.Code() ==> r.db.images[k] == db.images[k])
  {
    CrawlNeverResetsStatus(db, w);
  }

  /** Every row a run adds is a candidate's row of one of the store's sources
      whose page was fetched. */
  lemma RunAppendsCandidateRows(env: Env, db: Db, w: World, reportOk: bool, startTime: int)
    ensures NewRowsFromSources(db, Run(env, db, w, reportOk, startTime).db, db.sources, w)
  {
    CrawlAppendsCandidateRows(db, w);
  }

  /** A run never reports an image again that was finished before it and
      written before its start time: the watermark keeps old pairs out. */
  lemma RunDoesNotReportOldImages(env: Env, db: Db, w: World, reportOk: bool, startTime: int, k: int)
    requires Valid(db)
    requires 0 <= k < |db.images|
    requires db.images[k].status != Pending.Code() && db.images[k].lastUpdated < startTime
    ensures var r := Run(env, db, w, reportOk, startTime);
      forall m :: m in r.matches ==> m.imageId != db.images[k].id
  {
    var r := Run(env, db, w, reportOk, startTime);
    if r.exit == Finished {
      RunNeverResetsStatus(env, db, w, reportOk, startTime);
      assert r.db.images[k] == db.images[k];
      NoRowForEarlierImage(r.db, startTime, k);
    }
  }

  /** A completed run stamps a source exactly when its page was fetched and the
      stamp was written; a failed fetch leaves the source's time as it was. */
  lemma RunRefreshesFetchedSources(env: Env, db: Db, w: World, reportOk: bool, startTime: int)
    ensures var r := Run(env, db, w, reportOk, startTime);
      r.exit == Finished ==>
        && |r.db.sources| == |db.sources|
        && forall k :: 0 <= k < |db.sources| ==>
             r.db.sources[k].lastUpdated ==
               (if Refreshed(w.source(db.sources[k].id)) then w.source(db.sources[k].id).now
                else db.sources[k].lastUpdated)
  {
    CrawlRefreshesFetchedSources(db, w);
  }

  /** No link is written to status 2 by a run, so a store without such a link
      yields no matches and no emission. */
  lemma RunWithoutActiveLinksReportsNothing(env: Env, db: Db, w: World, reportOk: bool, startTime: int)
    requires forall k :: 0 <= k < |db.links| ==> db.links[k].status != Active.Code()
    ensures var r := Run(env, db, w, reportOk, startTime);
      r.matches == [] && r.emission == Silent
  {
    var r := Run(env, db, w, reportOk, startTime);
    if r.exit == Finished {
      CrawlWritesNoActiveLink(db, w);
      NoActiveLinkNoMatches(Crawl(db, w).db, startTime);
    }
  }

  /** The start time in the unit of `last_updated`: the whole second the
      millisecond count falls in. */
  function StartSecond(nowMs: int): (r: int)
    ensures r * 1000 <= nowMs < r * 1000 + 1000
  {
    nowMs / 1000
  }

  /** `main` as written: `Date.now()`, a millisecond count, reaches the query
      unconverted. */
  function MainAsWritten(env: Env, db: Db, w: World, reportOk: bool, nowMs: int): (r: RunResult)
    ensures r.exit == Finished ==> forall m :: m in r.matches <==> Produces(r.db, nowMs, m)
    ensures r.exit == Finished ==> NewestFirst(r.matches)
    ensures r.exit == Finished && Valid(db) ==> OneRowPerImage(r.matches)
  {
    Run(env, db, w, reportOk, nowMs)
  }

  /** `main` with the start time converted to seconds before the query. The
      conversion changes only the selection: the exit and the store are those
      of the run as written. */
  function Main(env: Env, db: Db, w: World, reportOk: bool, nowMs: int): (r: RunResult)
    ensures r.exit == Finished ==> forall m :: m in r.matches <==> Produces(r.db, StartSecond(nowMs), m)
    ensures r.exit == Finished ==> NewestFirst(r.matches)
    ensures r.exit == Finished && Valid(db) ==> OneRowPerImage(r.matches)
    ensures r.exit == MainAsWritten(env, db, w, reportOk, nowMs).exit
    ensures r.db == MainAsWritten(env, db, w, reportOk, nowMs).db
  {
    Run(env, db, w, reportOk, StartSecond(nowMs))
  }

  /** Every clock reading the collaborators report during the run is at least `t`:
      the start time is captured before any source is read. */
  ghost predicate ClocksFrom(w: World, t: int)
  {
    && (forall id :: w.image(id).now >= t)
    && (forall id :: w.source(id).now >= t)
    && (forall id :: w.source(id).fetch.Page? ==>
          forall k :: 0 <= k < |w.source(id).fetch.found| ==>
            w.source(id).fetch.found[k].outcome.linkNow >= t && w.source(id).fetch.found[k].outcome.imageNow >= t)
  }

  /** An image the run downloaded successfully carries one of the run's clock
      readings. */
  lemma {:induction false} RunStampsWithItsClock(env: Env, db: Db, w: World, reportOk: bool, startTime: int, k: int)
    requires Valid(db)
    requires var r := Run(env, db, w, reportOk, startTime);
      && r.exit == Finished
      && 0 <= k < |r.db.images|
      && (k >= |db.images| || db.images[k].status == Pending.Code())
      && r.db.images[k].status == Active.Code()
    ensures var r := Run(env, db, w, reportOk, startTime);
      r.db.images[k].lastUpdated == w.image(r.db.images[k].id).now
  {
    var r := Run(env, db, w, reportOk, startTime);
    assert ProcessedSince(db, r.db, w);
    assert !w.image(r.db.images[k].id).updateThrows;
  }

  /** With seconds, a run reports every fully succeeded pair whose image it
      downloaded itself. */
  lemma MainReportsPairsWrittenDuringRun(env: Env, db: Db, w: World, reportOk: bool, nowMs: int,
                                         k: int, l: Link, s: Source)
    requires Valid(db)
    requires ClocksFrom(w, StartSecond(nowMs))
    requires var r := Main(env, db, w, reportOk, nowMs);
      && r.exit == Finished
      && 0 <= k < |r.db.images|
      && (k >= |db.images| || db.images[k].status == Pending.Code())
      && l in r.db.links && s in r.db.sources
      && r.db.images[k].linkId == l.id && s.id == l.sourceId
      && l.status == Active.Code() && r.db.images[k].status == Active.Code()
    ensures var r := Main(env, db, w, reportOk, nowMs);
      Row(l, r.db.images[k], s) in r.matches
  {
    var r := Main(env, db, w, reportOk, nowMs);
    RunStampsWithItsClock(env, db, w, reportOk, StartSecond(nowMs), k);
    StartTimeBoundary(r.db, l, r.db.images[k], s, StartSecond(nowMs));
  }

  /** As written, a run reports none of the pairs whose image it downloaded
      itself: their seconds count is below the millisecond start time. */
  lemma MainAsWrittenMissesPairsWrittenDuringRun(env: Env, db: Db, w: World, reportOk: bool, nowMs: int,
                                                 k: int, l: Link, s: Source)
    requires Valid(db)
    requires forall id :: w.image(id).now < nowMs
    requires var r := MainAsWritten(env, db, w, reportOk, nowMs);
      && r.exit == Finished
      && 0 <= k < |r.db.images|
      && (k >= |db.images| || db.images[k].status == Pending.Code())
      && l in r.db.links && s in r.db.sources
      && r.db.images[k].linkId == l.id && s.id == l.sourceId
      && l.status == Active.Code() && r.db.images[k].status == Active.Code()
    ensures var r := MainAsWritten(env, db, w, reportOk, nowMs);
      Row(l, r.db.images[k], s) !in r.matches
  {
    var r := MainAsWritten(env, db, w, reportOk, nowMs);
    RunStampsWithItsClock(env, db, w, reportOk, nowMs, k);
    StartTimeBoundary(r.db, l, r.db.images[k], s, nowMs);
  }

  /** As written, a fully succeeded pair whose image was written in the second
      the run started, or in any later second short of the millisecond count
      itself, is not selected. */
  lemma MillisecondStartTimeHidesFreshPairs(db: Db, l: Link, i: Image, s: Source, nowMs: int)
    requires Valid(db)
    requires l in db.links && i in db.images && s in db.sources
    requires i.linkId == l.id && s.id == l.sourceId
    requires l.status == Active.Code() && i.status == Active.Code()
    requires StartSecond(nowMs) <= i.lastUpdated < nowMs
    ensures Row(l, i, s) !in GetLatestMatches(db, nowMs)
  {
    StartTimeBoundary(db, l, i, s, nowMs);
  }

  /** With the start time in seconds, every fully succeeded pair whose image
      was written at or after the second the run started is selected. */
  lemma SecondStartTimeKeepsFreshPairs(db: Db, l: Link, i: Image, s: Source, nowMs: int)
    requires Valid(db)
    requires l in db.links && i in db.images && s in db.sources
    requires i.linkId == l.id && s.id == l.sourceId
    requires l.status == Active.Code() && i.status == Active.Code()
    ensures Row(l, i, s) in GetLatestMatches(db, StartSecond(nowMs)) <==> i.lastUpdated >= StartSecond(nowMs)
  {
    StartTimeBoundary(db, l, i, s, StartSecond(nowMs));
  }

  /** A concrete instance: a run started at 1600000000000 ms whose image was
      written at 1600000000 s. */
  lemma StartTimeUnitExample()
    ensures var l := Link(1, 1, "http://x/a", None, None, Active.Code(), 1600000000);
      var i := Image(1, 1, 1, "http://x/i.jpg", Active.Code(), 1600000000);
      var s := Source(1, None, "http://x", "images-and-links", 1600000000);
      var db := Db([s], [l], [i]);
      && GetLatestMatches(db, 1600000000000) == []
      && GetLatestMatches(db, StartSecond(1600000000000)) == [Row(l, i, s)]
  {
    var l := Link(1, 1, "http://x/a", None, None, Active.Code(), 1600000000);
    var i := Image(1, 1, 1, "http://x/i.jpg", Active.Code(), 1600000000);
    var s := Source(1, None, "http://x", "images-and-links", 1600000000);
    var db := Db([s], [l], [i]);
    assert StartSecond(1600000000000) == 1600000000;
    assert Eligible(l, i, s, StartSecond(1600000000000));
    assert !Eligible(l, i, s, 1600000000000);
    assert [s][1..] == [] && [i][1..] == [] && [l][1..] == [];
    assert JoinSources(l, i, [s], StartSecond(1600000000000)) == [Row(l, i, s)];
    assert JoinSources(l, i, [s], 1600000000000) == [];
    assert JoinImages(l, [i], [s], StartSecond(1600000000000)) == [Row(l, i, s)];
    assert JoinImages(l, [i], [s], 1600000000000) == [];
    assert JoinLinks(db.links, db.images, db.sources, 1600000000000) == [];
    assert JoinLinks(db.links, db.images, db.sources, StartSecond(1600000000000)) == [Row(l, i, s)];
  }
}

=== FILE: records.dfy ===
/** The rows of the record store (tables `sources`, `links`, `images`), the
    status lifecycle and the store's well-formedness invariant. */
module Records {
  import opened Basics

  /** Lifecycle status of a link or image. */
  datatype Status = Pending | Active | Failed {

    /** The integer the store persists for this status. */
    function Code(): int
    {
      match this
      case Pending => 1
      case Active => 2
      case Failed => -1
    }
  }

  /** The status a persisted integer stands for, if it stands for one. */
  function StatusOf(code: int): (r: Option<Status>)
    ensures r.Some? ==> r.value.Code() == code
    ensures r.None? ==> forall s: Status :: s.Code() != code
  {
    if code == 1 then Some(Pending)
    else if code == 2 then Some(Active)
    else if code == -1 then Some(Failed)
    else None
  }

  /** Image url written for a source whose policy has no real image. */
  const PlaceholderUrl: string := "placeholder"

  /** A configured origin; `kind` is the `type` column naming its policy. */
  datatype Source = Source(id: int, title: Option<string>, url: string, kind: string, lastUpdated: int)

  /** A discovered destination; `status` holds a persisted status code. */
  datatype Link = Link(id: int, sourceId: int, url: string, title: Option<string>,
                       text: Option<string>, status: int, lastUpdated: int)

  /** A discovered asset reference owned by a link. */
  datatype Image = Image(id: int, linkId: int, sourceId: int, url: string, status: int, lastUpdated: int)

  /** The three tables, each in rowid order. Timestamps are seconds since the epoch. */
  datatype Db = Db(sources: seq<Source>, links: seq<Link>, images: seq<Image>)

  predicate UniqueSourceIds(ss: seq<Source>)
  {
    forall j, k :: 0 <= j < k < |ss| ==> ss[j].id != ss[k].id
  }

  predicate UniqueLinkIds(ls: seq<Link>)
  {
    forall j, k :: 0 <= j < k < |ls| ==> ls[j].id != ls[k].id
  }

  predicate UniqueImageIds(ims: seq<Image>)
  {
    forall j, k :: 0 <= j < k < |ims| ==> ims[j].id != ims[k].id
  }

  /** No two links share a (source, url) pair: the key that absorbs rediscoveries. */
  predicate UniqueLinkKeys(ls: seq<Link>)
  {
    forall j, k :: 0 <= j < k < |ls| ==> ls[j].sourceId != ls[k].sourceId || ls[j].url != ls[k].url
  }

  /** Every persisted status is one of 1, 2 and -1. */
  predicate KnownStatuses(db: Db)
  {
    && (forall k :: 0 <= k < |db.links| ==> StatusOf(db.links[k].status).Some?)
    && (forall k :: 0 <= k < |db.images| ==> StatusOf(db.images[k].status).Some?)
  }

  /** Some link has this id and belongs to this source. */
  predicate LinkExists(ls: seq<Link>, linkId: int, sourceId: int)
  {
    exists m :: 0 <= m < |ls| && ls[m].id == linkId && ls[m].sourceId == sourceId
  }

  /** Every image belongs to a stored link of its own source. */
  predicate Linked(db: Db)
  {
    forall j :: 0 <= j < |db.images| ==> LinkExists(db.links, db.images[j].linkId, db.images[j].sourceId)
  }

  /** The invariant every store operation used by a run preserves. */
  predicate Valid(db: Db)
  {
    && UniqueSourceIds(db.sources)
    && UniqueLinkIds(db.links)
    && UniqueImageIds(db.images)
    && UniqueLinkKeys(db.links)
    && KnownStatuses(db)
  }
}

=== FILE: report_query.dfy ===
/** `getLatestMatches`: the inner join of links, images and sources, filtered
    to fully succeeded pairs whose image was written at or after a start time,
    ordered by the link's time, newest first. The query names no tie-break, so
    the model fixes one admissible order and states the rest as a permutation. */
module Query {
  import opened Basics
  import opened Records

  /** One result row (the query's column aliases). */
  datatype Match = Match(title: Option<string>, url: string, lastUpdated: int,
                         imageId: int, sourceTitle: Option<string>, sourceUrl: string)

  /** The row a (link, image, source) triple projects to. */
  function Row(l: Link, i: Image, s: Source): Match
  {
    Match(l.title, l.url, l.lastUpdated, i.id, s.title, s.url)
  }

  /** The ON and WHERE conditions of the query for one triple. `startTime` is
      compared with the image's time as the raw number it is. */
  predicate Eligible(l: Link, i: Image, s: Source, startTime: int)
  {
    && i.linkId == l.id
    && s.id == l.sourceId
    && l.status == Active.Code()
    && i.status == Active.Code()
    && i.lastUpdated >= startTime
  }

  /** `m` is the row of some eligible triple of the store. */
  ghost predicate Produces(db: Db, startTime: int, m: Match)
  {
    exists l, i, s :: l in db.links && i in db.images && s in db.sources
      && Eligible(l, i, s, startTime) && m == Row(l, i, s)
  }

  /** Rows for one link and image, over the sources. */
  function JoinSources(l: Link, i: Image, ss: seq<Source>, startTime: int): (r: seq<Match>)
    ensures forall m :: m in r <==> exists s :: s in ss && Eligible(l, i, s, startTime) && m == Row(l, i, s)
  {
    if ss == [] then []
    else
      assert ss == [ss[0]] + ss[1..];
      (if Eligible(l, i, ss[0], startTime) then [Row(l, i, ss[0])] else [])
        + JoinSources(l, i, ss[1..], startTime)
  }

  /** Rows for one link, over images and sources. */
  function JoinImages(l: Link, ims: seq<Image>, ss: seq<Source>, startTime: int): (r: seq<Match>)
    ensures forall m :: m in r <==>
      exists i, s :: i in ims && s in ss && Eligible(l, i, s, startTime) && m == Row(l, i, s)
  {
    if ims == [] then []
    else
      assert ims == [ims[0]] + ims[1..];
      JoinSources(l, ims[0], ss, startTime) + JoinImages(l, ims[1..], ss, startTime)
  }

  /** Every row of the join, before ordering. */
  function JoinLinks(ls: seq<Link>, ims: seq<Image>, ss: seq<Source>, startTime: int): (r: seq<Match>)
    ensures forall m :: m in r <==>
      exists l, i, s :: l in ls && i in ims && s in ss && Eligible(l, i, s, startTime) && m == Row(l, i, s)
  {
    if ls == [] then []
    else
      assert ls == [ls[0]] + ls[1..];
      JoinImages(ls[0], ims, ss, startTime) + JoinLinks(ls[1..], ims, ss, startTime)
  }

  /** `ORDER BY links.last_updated DESC`. */
  predicate NewestFirst(ms: seq<Match>)
  {
    forall j, k :: 0 <= j < k < |ms| ==> ms[j].lastUpdated >= ms[k].lastUpdated
  }

  /** A row no older than the head of a newest-first list may go in front of it. */
  lemma {:induction false} PrependKeepsOrder(x: Match, rest: seq<Match>)
    requires NewestFirst(rest)
    requires rest != [] ==> x.lastUpdated >= rest[0].lastUpdated
    ensures NewestFirst([x] + rest)
  {
    var r := [x] + rest;
    forall j, k | 0 <= j < k < |r| ensures r[j].lastUpdated >= r[k].lastUpdated {
      if j == 0 {
        assert r[k] == rest[k - 1];
        assert rest[0].lastUpdated >= rest[k - 1].lastUpdated;
      } else {
        assert r[j] == rest[j - 1] && r[k] == rest[k - 1];
      }
    }
  }

  /** Dropping the head of a newest-first list keeps it newest first, and the head is no older than the rest. */
  lemma {:induction false} TailKeepsOrder(sorted: seq<Match>)
    requires sorted != [] && NewestFirst(sorted)
    ensures NewestFirst(sorted[1..])
    ensures |sorted| > 1 ==> sorted[0].lastUpdated >= sorted[1..][0].lastUpdated
  {
    var tail := sorted[1..];
    forall j, k | 0 <= j < k < |tail| ensures tail[j].lastUpdated >= tail[k].lastUpdated {
      assert tail[j] == sorted[j + 1] && tail[k] == sorted[k + 1];
    }
  }

  /** Places one row into a newest-first list. */
  function InsertByTime(m: Match, sorted: seq<Match>): (r: seq<Match>)
    requires NewestFirst(sorted)
    ensures NewestFirst(r)
    ensures multiset(r) == multiset(sorted) + multiset{m}
    ensures r[0] == m || (sorted != [] && r[0] == sorted[0])
  {
    if sorted == [] then [m]
    else if m.lastUpdated >= sorted[0].lastUpdated then
      PrependKeepsOrder(m, sorted);
      [m] + sorted
    else
      var tail := sorted[1..];
      assert sorted == [sorted[0]] + tail;
      TailKeepsOrder(sorted);
      var rest := InsertByTime(m, tail);
      PrependKeepsOrder(sorted[0], rest);
      assert multiset([sorted[0]] + rest) == multiset{sorted[0]} + multiset(rest);
      [sorted[0]] + rest
  }

  /** Orders rows newest first. */
  function SortByTime(ms: seq<Match>): (r: seq<Match>)
    ensures NewestFirst(r)
    ensures multiset(r) == multiset(ms)
  {
    if ms == [] then []
    else
      assert ms == [ms[0]] + ms[1..];
      InsertByTime(ms[0], SortByTime(ms[1..]))
  }

  /** `getLatestMatches(startTime)`: the eligible rows and nothing else, each as
      often as the join yields it, newest link first. */
  function GetLatestMatches(db: Db, startTime: int): (r: seq<Match>)
    ensures forall m :: m in r <==> Produces(db, startTime, m)
    ensures multiset(r) == multiset(JoinLinks(db.links, db.images, db.sources, startTime))
    ensures NewestFirst(r)
  {
    var rows := JoinLinks(db.links, db.images, db.sources, startTime);
    var r := SortByTime(rows);
    assert forall m :: m in r <==> m in rows by {
      forall m ensures m in r <==> m in rows {
        assert m in r <==> m in multiset(r);
        assert m in rows <==> m in multiset(rows);
      }
    }
    r
  }

  lemma {:induction false} NoRowsForInactiveLink(l: Link, ims: seq<Image>, ss: seq<Source>, startTime: int)
    requires l.status != Active.Code()
    ensures JoinImages(l, ims, ss, startTime) == []
    decreases |ims|
  {
    if ims != [] {
      NoRowsForInactiveLink(l, ims[1..], ss, startTime);
      NoRowsForInactivePair(l, ims[0], ss, startTime);
    }
  }

  lemma {:induction false} NoRowsForInactivePair(l: Link, i: Image, ss: seq<Source>, startTime: int)
    requires l.status != Active.Code()
    ensures JoinSources(l, i, ss, startTime) == []
    decreases |ss|
  {
    if ss != [] {
      NoRowsForInactivePair(l, i, ss[1..], startTime);
    }
  }

  lemma {:induction false} NoRowsWithoutActiveLinks(ls: seq<Link>, ims: seq<Image>, ss: seq<Source>, startTime: int)
    requires forall k :: 0 <= k < |ls| ==> ls[k].status != Active.Code()
    ensures JoinLinks(ls, ims, ss, startTime) == []
    decreases |ls|
  {
    if ls != [] {
      NoRowsForInactiveLink(ls[0], ims, ss, startTime);
      NoRowsWithoutActiveLinks(ls[1..], ims, ss, startTime);
    }
  }

  /** With no link at status 2, nothing qualifies, whatever the start time. */
  lemma NoActiveLinkNoMatches(db: Db, startTime: int)
    requires forall k :: 0 <= k < |db.links| ==> db.links[k].status != Active.Code()
    ensures GetLatestMatches(db, startTime) == []
  {
    NoRowsWithoutActiveLinks(db.links, db.images, db.sources, startTime);
    var r := GetLatestMatches(db, startTime);
    assert |multiset(r)| == 0;
  }

  /** A fully succeeded pair of a well-formed store is reported exactly when its
      image time is at or after the start time. */
  lemma StartTimeBoundary(db: Db, l: Link, i: Image, s: Source, startTime: int)
    requires Valid(db)
    requires l in db.links && i in db.images && s in db.sources
    requires i.linkId == l.id && s.id == l.sourceId
    requires l.status == Active.Code() && i.status == Active.Code()
    ensures Row(l, i, s) in GetLatestMatches(db, startTime) <==> i.lastUpdated >= startTime
  {
    if Row(l, i, s) in GetLatestMatches(db, startTime) {
      var l', i', s' :| l' in db.links && i' in db.images && s' in db.sources
        && Eligible(l', i', s', startTime) && Row(l, i, s) == Row(l', i', s');
      var j :| 0 <= j < |db.images| && db.images[j] == i;
      var k :| 0 <= k < |db.images| && db.images[k] == i';
      assert j == k;
    }
  }

  /** No two rows name the same image. */
  predicate OneRowPerImage(ms: seq<Match>)
  {
    forall j, k :: 0 <= j < k < |ms| ==> ms[j].imageId != ms[k].imageId
  }

  lemma OneRowPerImageConcat(a: seq<Match>, b: seq<Match>)
    requires OneRowPerImage(a) && OneRowPerImage(b)
    requires forall x, y :: x in a && y in b ==> x.imageId != y.imageId
    ensures OneRowPerImage(a + b)
  {
    var c := a + b;
    forall j, k | 0 <= j < k < |c| ensures c[j].imageId != c[k].imageId {
      if k < |a| {
        assert c[j] == a[j] && c[k] == a[k];
      } else if j >= |a| {
        assert c[j] == b[j - |a|] && c[k] == b[k - |a|];
      } else {
        assert c[j] == a[j] && c[k] == b[k - |a|];
        assert a[j] in a && b[k - |a|] in b;
      }
    }
  }

  lemma {:induction false} JoinSourcesNone(l: Link, i: Image, ss: seq<Source>, startTime: int)
    requires forall k :: 0 <= k < |ss| ==> ss[k].id != l.sourceId
    ensures JoinSources(l, i, ss, startTime) == []
    decreases |ss|
  {
    if ss != [] {
      JoinSourcesNone(l, i, ss[1..], startTime);
    }
  }

  /** With unique source ids, a link and an image join with at most one source. */
  lemma {:induction false} JoinSourcesAtMostOne(l: Link, i: Image, ss: seq<Source>, startTime: int)
    requires UniqueSourceIds(ss)
    ensures |JoinSources(l, i, ss, startTime)| <= 1
    decreases |ss|
  {
    if ss != [] {
      if Eligible(l, i, ss[0], startTime) {
        JoinSourcesNone(l, i, ss[1..], startTime);
      } else {
        JoinSourcesAtMostOne(l, i, ss[1..], startTime);
      }
    }
  }

  /** With unique image and source ids, one link's rows name distinct images. */
  lemma {:induction false} JoinImagesOnePerImage(l: Link, ims: seq<Image>, ss: seq<Source>, startTime: int)
    requires UniqueImageIds(ims) && UniqueSourceIds(ss)
    ensures OneRowPerImage(JoinImages(l, ims, ss, startTime))
    decreases |ims|
  {
    if ims != [] {
      var a := JoinSources(l, ims[0], ss, startTime);
      var b := JoinImages(l, ims[1..], ss, startTime);
      JoinSourcesAtMostOne(l, ims[0], ss, startTime);
      JoinImagesOnePerImage(l, ims[1..], ss, startTime);
      forall x, y | x in a && y in b ensures x.imageId != y.imageId {
        var i, s :| i in ims[1..] && s in ss && Eligible(l, i, s, startTime) && y == Row(l, i, s);
        var q :| 0 <= q < |ims[1..]| && ims[1..][q] == i;
        assert ims[q + 1] == i;
      }
      OneRowPerImageConcat(a, b);
    }
  }

  /** With unique ids in all three tables, the join names each image at most once:
      an image fixes its link by `link_id`. */
  lemma {:induction false} JoinLinksOnePerImage(ls: seq<Link>, ims: seq<Image>, ss: seq<Source>, startTime: int)
    requires UniqueLinkIds(ls) && UniqueImageIds(ims) && UniqueSourceIds(ss)
    ensures OneRowPerImage(JoinLinks(ls, ims, ss, startTime))
    decreases |ls|
  {
    if ls != [] {
      var a := JoinImages(ls[0], ims, ss, startTime);
      var b := JoinLinks(ls[1..], ims, ss, startTime);
      JoinImagesOnePerImage(ls[0], ims, ss, startTime);
      JoinLinksOnePerImage(ls[1..], ims, ss, startTime);
      forall x, y | x in a && y in b ensures x.imageId != y.imageId {
        var i1, s1 :| i1 in ims && s1 in ss && Eligible(ls[0], i1, s1, startTime) && x == Row(ls[0], i1, s1);
        var l2, i2, s2 :| l2 in ls[1..] && i2 in ims && s2 in ss && Eligible(l2, i2, s2, startTime) && y == Row(l2, i2, s2);
        var q :| 0 <= q < |ls[1..]| && ls[1..][q] == l2;
        assert ls[q + 1] == l2;
        assert i1.linkId != i2.linkId;
        var p1 :| 0 <= p1 < |ims| && ims[p1] == i1;
        var p2 :| 0 <= p2 < |ims| && ims[p2] == i2;
        assert p1 != p2;
      }
      OneRowPerImageConcat(a, b);
    }
  }

  lemma {:induction false} InsertByTimeOnePerImage(m: Match, sorted: seq<Match>)
    requires NewestFirst(sorted) && OneRowPerImage(sorted)
    requires forall x :: x in sorted ==> x.imageId != m.imageId
    ensures OneRowPerImage(InsertByTime(m, sorted))
    decreases |sorted|
  {
    if sorted != [] && m.lastUpdated < sorted[0].lastUpdated {
      var tail := sorted[1..];
      TailKeepsOrder(sorted);
      assert OneRowPerImage(tail) by {
        forall j, k | 0 <= j < k < |tail| ensures tail[j].imageId != tail[k].imageId {
          assert tail[j] == sorted[j + 1] && tail[k] == sorted[k + 1];
        }
      }
      InsertByTimeOnePerImage(m, tail);
      var rest := InsertByTime(m, tail);
      forall y | y in rest ensures sorted[0].imageId != y.imageId {
        assert y in multiset(rest);
        assert y in multiset(tail) || y == m;
        if y != m {
          var q :| 0 <= q < |tail| && tail[q] == y;
          assert sorted[q + 1] == y;
        }
      }
      OneRowPerImageConcat([sorted[0]], rest);
      assert InsertByTime(m, sorted) == [sorted[0]] + rest;
    } else {
      OneRowPerImageConcat([m], sorted);
    }
  }

  lemma {:induction false} SortByTimeOnePerImage(ms: seq<Match>)
    requires OneRowPerImage(ms)
    ensures OneRowPerImage(SortByTime(ms))
    decreases |ms|
  {
    if ms != [] {
      var tail := ms[1..];
      assert OneRowPerImage(tail) by {
        forall j, k | 0 <= j < k < |tail| ensures tail[j].imageId != tail[k].imageId {
          assert tail[j] == ms[j + 1] && tail[k] == ms[k + 1];
        }
      }
      SortByTimeOnePerImage(tail);
      var sorted := SortByTime(tail);
      forall x | x in sorted ensures x.imageId != ms[0].imageId {
        assert x in multiset(sorted);
        var q :| 0 <= q < |tail| && tail[q] == x;
        assert ms[q + 1] == x;
      }
      InsertByTimeOnePerImage(ms[0], sorted);
    }
  }

  /** In a well-formed store the report names each image at most once, so no
      row appears twice. */
  lemma MatchesOnePerImage(db: Db, startTime: int)
    requires Valid(db)
    ensures var r := GetLatestMatches(db, startTime);
      && OneRowPerImage(r)
      && forall j, k :: 0 <= j < k < |r| ==> r[j] != r[k]
  {
    JoinLinksOnePerImage(db.links, db.images, db.sources, startTime);
    SortByTimeOnePerImage(JoinLinks(db.links, db.images, db.sources, startTime));
  }

  /** In a well-formed store, an image written before the start time has no
      row: no other image shares its id. */
  lemma NoRowForEarlierImage(db: Db, startTime: int, k: int)
    requires Valid(db)
    requires 0 <= k < |db.images| && db.images[k].lastUpdated < startTime
    ensures forall m :: Produces(db, startTime, m) ==> m.imageId != db.images[k].id
  {
    forall m | Produces(db, startTime, m) ensures m.imageId != db.images[k].id {
      var l, i, s :| l in db.links && i in db.images && s in db.sources
        && Eligible(l, i, s, startTime) && m == Row(l, i, s);
      var p :| 0 <= p < |db.images| && db.images[p] == i;
      assert p != k;
    }
  }
}

=== FILE: store.dfy ===
/** The operations of the `Database` class on an abstract store: inserts that
    create pending rows, updates that touch one row, and the pending queries.
    The clock (`strftime("%s", "now")`) is the parameter `now`, in seconds. */
module Store {
  import opened Basics
  import opened Records

  /** The only rejection the model assumes of an insert: the (source, url) key of links. */
  datatype StoreError = DuplicateKey

  /** The largest of a non-empty list of ids. */
  function MaxId(ids: seq<int>): (r: int)
    requires ids != []
    ensures r in ids
    ensures forall k :: 0 <= k < |ids| ==> ids[k] <= r
  {
    if |ids| == 1 then ids[0]
    else
      var m := MaxId(ids[1..]);
      if ids[0] >= m then ids[0] else m
  }

  /** The rowid an insert receives: one more than the largest, or 1 in an empty table. */
  function NextRowId(ids: seq<int>): (r: int)
    ensures forall k :: 0 <= k < |ids| ==> ids[k] < r
    ensures ids == [] ==> r == 1
  {
    if ids == [] then 1 else MaxId(ids) + 1
  }

  function LinkIds(ls: seq<Link>): seq<int>
  {
    seq(|ls|, k requires 0 <= k < |ls| => ls[k].id)
  }

  function ImageIds(ims: seq<Image>): seq<int>
  {
    seq(|ims|, k requires 0 <= k < |ims| => ims[k].id)
  }

  /** Some link of the source already has this url. */
  predicate HasLinkKey(ls: seq<Link>, sourceId: int, url: string)
  {
    exists k :: 0 <= k < |ls| && ls[k].sourceId == sourceId && ls[k].url == url
  }

  lemma HasLinkKeyGrows(ls: seq<Link>, more: seq<Link>, sourceId: int, url: string)
    requires ls <= more
    requires HasLinkKey(ls, sourceId, url)
    ensures HasLinkKey(more, sourceId, url)
  {
    var k :| 0 <= k < |ls| && ls[k].sourceId == sourceId && ls[k].url == url;
    assert more[k] == ls[k];
  }

  lemma LinkExistsGrows(ls: seq<Link>, more: seq<Link>, linkId: int, sourceId: int)
    requires ls <= more
    requires LinkExists(ls, linkId, sourceId)
    ensures LinkExists(more, linkId, sourceId)
  {
    var m :| 0 <= m < |ls| && ls[m].id == linkId && ls[m].sourceId == sourceId;
    assert more[m] == ls[m];
  }

  /** Appending links keeps every image's link. */
  lemma LinkedGrows(db: Db, more: seq<Link>)
    requires Linked(db) && db.links <= more
    ensures Linked(db.(links := more))
  {
    forall j | 0 <= j < |db.images|
      ensures LinkExists(more, db.images[j].linkId, db.images[j].sourceId)
    {
      LinkExistsGrows(db.links, more, db.images[j].linkId, db.images[j].sourceId);
    }
  }

  /** `insertLink`: a new pending link with a fresh id and no text, unless the
      (source, url) key is taken. Returns the new store and the link's id (`lastID`). */
  function InsertLink(db: Db, sourceId: int, url: string, title: Option<string>, now: int): (r: Result<(Db, int), StoreError>)
    ensures r.Err? <==> HasLinkKey(db.links, sourceId, url)
    ensures r.Ok? ==>
      && r.value.0 == db.(links := db.links + [Link(r.value.1, sourceId, url, title, None, Pending.Code(), now)])
      && forall k :: 0 <= k < |db.links| ==> db.links[k].id != r.value.1
    ensures r.Ok? && Valid(db) ==> Valid(r.value.0)
    ensures r.Ok? && Linked(db) ==> Linked(r.value.0)
  {
    if HasLinkKey(db.links, sourceId, url) then Err(DuplicateKey)
    else
      var id := NextRowId(LinkIds(db.links));
      var db' := db.(links := db.links + [Link(id, sourceId, url, title, None, Pending.Code(), now)]);
      assert forall k :: 0 <= k < |db.links| ==> db.links[k].id != id by {
        forall k | 0 <= k < |db.links| ensures db.links[k].id != id {
          assert LinkIds(db.links)[k] == db.links[k].id;
        }
      }
      assert Linked(db) ==> Linked(db') by {
        if Linked(db) { LinkedGrows(db, db'.links); }
      }
      Ok((db', id))
  }

  /** `insertImage`: a new pending image with a fresh id. Returns the new store and the id. */
  function InsertImage(db: Db, linkId: int, sourceId: int, url: string, now: int): (r: (Db, int))
    ensures r.0 == db.(images := db.images + [Image(r.1, linkId, sourceId, url, Pending.Code(), now)])
    ensures forall k :: 0 <= k < |db.images| ==> db.images[k].id != r.1
    ensures Valid(db) ==> Valid(r.0)
    ensures Linked(db) && LinkExists(db.links, linkId, sourceId) ==> Linked(r.0)
  {
    var id := NextRowId(ImageIds(db.images));
    assert forall k :: 0 <= k < |db.images| ==> db.images[k].id != id by {
      forall k | 0 <= k < |db.images| ensures db.images[k].id != id {
        assert ImageIds(db.images)[k] == db.images[k].id;
      }
    }
    (db.(images := db.images + [Image(id, linkId, sourceId, url, Pending.Code(), now)]), id)
  }

  /** `updateSource`: stamps the poll time of the source with this id. */
  function UpdateSource(db: Db, sourceId: int, now: int): (r: Db)
    ensures r.links == db.links && r.images == db.images
    ensures |r.sources| == |db.sources|
    ensures forall k :: 0 <= k < |db.sources| ==>
      && r.sources[k].(lastUpdated := db.sources[k].lastUpdated) == db.sources[k]
      && (db.sources[k].id == sourceId ==> r.sources[k].lastUpdated == now)
      && (db.sources[k].id != sourceId ==> r.sources[k] == db.sources[k])
    ensures Valid(db) ==> Valid(r)
  {
    var ss := seq(|db.sources|, k requires 0 <= k < |db.sources| =>
      if db.sources[k].id == sourceId then db.sources[k].(lastUpdated := now) else db.sources[k]);
    db.(sources := ss)
  }

  /** `updateLink`: rewrites title, text, status and time of the link with this id. */
  function UpdateLink(db: Db, id: int, title: Option<string>, text: Option<string>, status: int, now: int): (r: Db)
    ensures r.sources == db.sources && r.images == db.images
    ensures |r.links| == |db.links|
    ensures forall k :: 0 <= k < |db.links| ==>
      && r.links[k].id == db.links[k].id
      && r.links[k].sourceId == db.links[k].sourceId
      && r.links[k].url == db.links[k].url
      && (db.links[k].id == id ==>
            r.links[k].title == title && r.links[k].text == text
            && r.links[k].status == status && r.links[k].lastUpdated == now)
      && (db.links[k].id != id ==> r.links[k] == db.links[k])
    ensures Valid(db) && StatusOf(status).Some? ==> Valid(r)
  {
    var ls := seq(|db.links|, k requires 0 <= k < |db.links| =>
      if db.links[k].id == id
      then db.links[k].(title := title, text := text, status := status, lastUpdated := now)
      else db.links[k]);
    db.(links := ls)
  }

  /** `updateImage`: rewrites status and time of the image with this id. */
  function UpdateImage(db: Db, id: int, status: int, now: int): (r: Db)
    ensures r.sources == db.sources && r.links == db.links
    ensures |r.images| == |db.images|
    ensures forall k :: 0 <= k < |db.images| ==>
      && r.images[k].(status := db.images[k].status, lastUpdated := db.images[k].lastUpdated) == db.images[k]
      && (db.images[k].id == id ==> r.images[k].status == status && r.images[k].lastUpdated == now)
      && (db.images[k].id != id ==> r.images[k] == db.images[k])
    ensures Valid(db) && StatusOf(status).Some? ==> Valid(r)
    ensures Linked(db) ==> Linked(r)
  {
    var ims := seq(|db.images|, k requires 0 <= k < |db.images| =>
      if db.images[k].id == id then db.images[k].(status := status, lastUpdated := now) else db.images[k]);
    db.(images := ims)
  }

  /** `getSources`: every configured source, in table order. */
  function GetSources(db: Db): (r: seq<Source>)
    ensures |r| == |db.sources| && forall k :: 0 <= k < |r| ==> r[k] == db.sources[k]
  {
    db.sources
  }

  /** The links of a table whose status is pending, in table order. */
  function PendingLinks(ls: seq<Link>): (r: seq<Link>)
    ensures forall l :: l in r <==> l in ls && l.status == Pending.Code()
    ensures forall l :: multiset(r)[l] == (if l.status == Pending.Code() then multiset(ls)[l] else 0)
    ensures |r| <= |ls|
  {
    if ls == [] then []
    else
      assert ls == [ls[0]] + ls[1..];
      (if ls[0].status == Pending.Code() then [ls[0]] else []) + PendingLinks(ls[1..])
  }

  /** The images of a table whose status is pending, in table order. */
  function PendingImages(ims: seq<Image>): (r: seq<Image>)
    ensures forall i :: i in r <==> i in ims && i.status == Pending.Code()
    ensures forall i :: multiset(r)[i] == (if i.status == Pending.Code() then multiset(ims)[i] else 0)
    ensures |r| <= |ims|
  {
    if ims == [] then []
    else
      assert ims == [ims[0]] + ims[1..];
      (if ims[0].status == Pending.Code() then [ims[0]] else []) + PendingImages(ims[1..])
  }

  /** `getPendingLinks`: exactly the links with status 1, each as often as the table holds it. */
  function GetPendingLinks(db: Db): (r: seq<Link>)
    ensures forall l :: l in r <==> l in db.links && l.status == Pending.Code()
    ensures forall l :: multiset(r)[l] == (if l.status == Pending.Code() then multiset(db.links)[l] else 0)
  {
    PendingLinks(db.links)
  }

  /** `getPendingImages`: exactly the images with status 1, each as often as the table holds it. */
  function GetPendingImages(db: Db): (r: seq<Image>)
    ensures forall i :: i in r <==> i in db.images && i.status == Pending.Code()
    ensures forall i :: multiset(r)[i] == (if i.status == Pending.Code() then multiset(db.images)[i] else 0)
  {
    PendingImages(db.images)
  }
}
